=== FILE: README.md ===
# MultiversX web wallet — a Dafny model

A browser wallet for the MultiversX (EGLD) chain, written in TypeScript and
React. This project models its core in Dafny and proves properties of that model.

The modelled parts are:
- the hex decoder and address derivation of `src/utils/index.ts`;
- the password-based encryption of `src/utils/crypto.ts`: PBKDF2 + AES-GCM
  with a salt ∥ iv ∥ ciphertext frame in base64;
- the network table of `src/config/networks.ts`;
- the `WalletService` class;
- the `useWallet` hook;
- four components: the transfer form and the dashboard, which read the list
  of wallets from browser storage; the export, which writes one wallet to a
  file; and the import, which appends a wallet from a file to the stored list.

Modules, one per source file or concern:

| module | models |
|---|---|
| `Results` | `Option` and `Result`, for values that may be missing and for thrown errors |
| `JsText` | the JavaScript text primitives the code relies on: `parseInt(pair, 16)`, `BigInt(text)`, the plain decimal text of a natural number (what `BigInt.prototype.toString` prints; a `Number` or a bignumber.js value prints it only below 1e21), `String.prototype.trim`, `ToUint8` |
| `Base64` | `btoa` over byte strings and `atob` as the forgiving-base64 decoder of the HTML standard |
| `Sdk` | the MultiversX SDK and the network provider, as records of functions (the transaction record, keys, addresses, signing, remote calls) |
| `Utils` | `src/utils/index.ts`, plus the second copy of the hex decoder in `src/hooks/useWallet.ts` |
| `Crypto` | `src/utils/crypto.ts` |
| `Networks` | `src/config/networks.ts` |
| `WalletService` | `src/services/walletService.ts` |
| `WalletHook` | `src/hooks/useWallet.ts` |
| `Wallets` | the stored `Wallet` record, the view of the `"wallets"` storage entry, and the JSON and CryptoJS calls |
| `TransferForm`, `Dashboard`, `WalletImport`, `WalletExport` | the four components |

How the model is built:
- Every stateful object is an immutable value, and every action is a pure
  function from the old state to the new one plus its outcome.
- A thrown exception is an `Err`. A setter that ran before the throw shows
  its effect in the returned state.
- Calls into code outside the core are fields of a record passed as a
  parameter. This covers the SDK, the provider, WebCrypto, `TextEncoder`,
  CryptoJS and `JSON`. A property that needs one of them to behave (for
  example, decryption undoing encryption) states that behaviour as a
  `requires`.
- Randomness and the clock are parameters: the generated phrase, the salt
  and iv, `uuidv4()`, `Date.now()`. Where `Date.now()` is read once per list
  entry, the clock is a function of the entry's position.

## Model

| member | source | states |
|---|---|---|
| `JsText.ToUint8` | src/utils/index.ts:10 | storing an integer into a `Uint8Array` keeps values in 0..255 and otherwise wraps modulo 256 |
| `JsText.ParseHexPair` | src/utils/index.ts:10 | `parseInt` of two characters in radix 16: two hex digits give their value; no digit, or `"0x"`, gives NaN; any value lies in -15..255 |
| `JsText.NatToDecimal` | src/services/walletService.ts:78 | the plain decimal text of a balance, as `balance.toString()` is assumed to print it (see "Left out"), is non-empty, all digits, with no leading zero |
| `JsText.DecimalRoundTrip` | src/services/walletService.ts:78 | reading the decimal text of a number back as digits gives the number |
| `JsText.ParseBigInt` | src/services/walletService.ts:101 | `BigInt(text)`: blank text is 0; trimmed decimal digits, with an optional `+` or `-`, give their (signed) value; a sign not followed by one or more digits and nothing else, or text that starts with 1..9 and holds a non-digit, throws; a negative result needs a leading minus |
| `JsText.ParseBigIntOfDecimal` | src/hooks/useWallet.ts:85 | `BigInt` accepts the plain decimal text of any natural number and returns that number |
| `Base64.Encode` | src/utils/crypto.ts:38 | `btoa` output has length 4·⌈n/3⌉, a multiple of four |
| `Base64.Decode` | src/utils/crypto.ts:42-44 | `atob` fails exactly when the unpadded, whitespace-free text has length ≡ 1 (mod 4) or a character outside the alphabet; otherwise it yields 3/4 of that length in bytes |
| `Base64.DecodeGroupsOfEncoded` | src/utils/crypto.ts:38-44 | decoding the unpadded encoding of any byte string gives the byte string back (proof by induction over three-byte groups) |
| `Base64.DecodeEncode` | src/utils/crypto.ts:38-44 | `atob(btoa(bytes))` is the bytes, for every byte string |
| `Base64.KnownAnswerFoo` | src/utils/crypto.ts:38 | `btoa` of "foo" is "Zm9v", the test vector of section 10 of RFC 4648 |
| `Base64.KnownAnswerFo` | src/utils/crypto.ts:38 | `btoa` of "fo" is "Zm8=", with one padding character |
| `Base64.KnownAnswerF` | src/utils/crypto.ts:38 | `btoa` of "f" is "Zg==", with two padding characters |
| `Sdk.SignWith` | src/services/walletService.ts:111-112 | applying a signature changes no field of the transaction except its signature |
| `Utils.PairByte` | src/utils/index.ts:10 | a pair of hex digits becomes their byte value; a pair with no hex digit becomes 0 (NaN stored into a `Uint8Array`) |
| `Utils.Decode` | src/hooks/useWallet.ts:14-21 | the decoder throws exactly on odd length; otherwise there is one byte per character pair, and byte k is the value of characters 2k and 2k+1 |
| `Utils.HexToBytes` | src/utils/index.ts:4-13 | the loop version fills the zero-initialised array so that the same holds, and agrees with `Utils.Decode` on every input |
| `Utils.Encode` | src/hooks/useWallet.ts:45 | `secretKey.hex()` produces two lower-case hex digits per key byte, high nibble first |
| `Utils.DecodeEncode` | src/hooks/useWallet.ts:76 | decoding the hex text of a key gives back exactly the key bytes |
| `Utils.EncodeDecode` | src/utils/index.ts:9-11 | every even-length hex string is, up to letter case, the encoding of the bytes it decodes to |
| `Utils.DeriveAddressFromPrivateKey` | src/utils/index.ts:15-21 | odd-length hex throws from the decoder; the call succeeds exactly when the decoded bytes are a secret key the SDK accepts, and then returns that key's address |
| `Utils.DeriveFailsBeforeKey` | src/utils/index.ts:15-17 | odd-length hex fails the same way whatever the SDK would do with the bytes |
| `Crypto.Pack` | src/utils/crypto.ts:32-36 | the result buffer holds the salt at 0..16, the iv at 16..28 and the ciphertext after them, and nothing else |
| `Crypto.Slice` | src/utils/crypto.ts:46-48 | `slice` within bounds is the sub-array; an end past the length is clamped to it; a start at or past the length, or past the end, gives an empty array |
| `Crypto.Unpack` | src/utils/crypto.ts:46-48 | a blob of at least 28 bytes splits into a 16-byte salt, a 12-byte iv and the rest, which concatenate back to the blob; a shorter blob gives an empty ciphertext |
| `Crypto.UnpackPack` | src/utils/crypto.ts:32-48 | splitting a packed frame recovers exactly its salt, iv and ciphertext |
| `Crypto.EncryptData` | src/utils/crypto.ts:1-39 | the output is valid base64; it decodes to the salt, then the iv, then the AES-GCM ciphertext of the data under the key PBKDF2 derives from the password and salt |
| `Crypto.DecryptData` | src/utils/crypto.ts:41-79 | text `atob` rejects fails as malformed; otherwise the call succeeds exactly when AES-GCM accepts the embedded ciphertext under the key derived from the embedded salt and the embedded iv, and then returns the UTF-8 decoding of the plaintext; a rejected ciphertext fails as undecryptable |
| `Crypto.DecryptEncrypt` | src/utils/crypto.ts:1-79 | with the same password, decryption sees the same salt (so the same key) and the same iv, and returns the original data |
| `Networks.TableFacts` | src/config/networks.ts:10-37 | three networks with distinct ids and chain ids "1", "T", "D"; the default is testnet; the labels are EGLD, xEGLD, xEGLD |
| `WalletService.New` | src/services/walletService.ts:12-15 | a new service is on the default network, its provider uses that network's API URL, and it has no signer |
| `WalletService.ClearWallet` | src/services/walletService.ts:17-19 | the signer is removed; the network and provider are kept |
| `WalletService.SetNetwork` | src/services/walletService.ts:25-28 | the provider is rebuilt for the new network's API URL; the signer is kept |
| `WalletService.SetThenGetNetwork` | src/services/walletService.ts:21-28 | `getCurrentNetwork` returns what `setNetwork` stored, and the provider follows it |
| `WalletService.NewServiceOnTestnet` | src/services/walletService.ts:13 | a new service reports testnet, chain "T" |
| `WalletService.InstallFromPhrase` | src/services/walletService.ts:61-67 | a phrase the SDK accepts installs its key as signer and returns that key's address; a rejected phrase leaves the service as it was |
| `WalletService.CreateWallet` | src/services/walletService.ts:30-51 | succeeds exactly when the SDK derives a key from the generated phrase; success installs that key as signer and returns the phrase with that key's address; any failure is "create failed" and leaves the service unchanged |
| `WalletService.ImportWallet` | src/services/walletService.ts:53-72 | succeeds exactly when the phrase is valid and the SDK derives a key from it; success installs that key as signer and returns its address; any failure is "import failed" and leaves the service unchanged |
| `WalletService.ImportCreatedPhrase` | src/services/walletService.ts:30-72 | importing the phrase `createWallet` generated installs the same signer and returns the same address as creating did, and fails exactly when creating fails |
| `WalletService.GetBalance` | src/services/walletService.ts:74-83 | succeeds exactly when the address parses and the account query succeeds, and then returns decimal digits whose value is the balance; any failure is "balance failed" |
| `WalletService.BuildTransaction` | src/services/walletService.ts:99-108 | the transaction carries the queried nonce, the amount, both addresses, gas price 10^9, gas limit 50000, version 1, empty data and the current network's chain id |
| `WalletService.PrepareSend` | src/services/walletService.ts:90-112 | succeeds exactly when there is a signer, both addresses parse, the nonce query succeeds and `BigInt(amount)` parses, and then yields that transaction signed with the signer's key |
| `WalletService.SendTransaction` | src/services/walletService.ts:85-121 | returns the provider's hash exactly when preparation and submission both succeed; every failure is the same "send failed" |
| `WalletService.SendAfterClearFails` | src/services/walletService.ts:91-93 | after `clearWallet`, sending fails whatever the network would answer |
| `WalletService.SentTransactionOnCurrentChain` | src/services/walletService.ts:106 | after `setNetwork(n)`, a prepared transaction carries n's chain id and the parsed amount |
| `WalletService.TimestampOr` | src/services/walletService.ts:146 | a non-zero numeric timestamp is kept; 0, NaN or a missing one is replaced by the current time |
| `WalletService.GetTransactions` | src/services/walletService.ts:123-152 | a provider failure, or an entry without a `value` (whose `toString()` throws), is "history failed"; a non-array response gives the empty list; otherwise there is one summary per entry, in order, with its fields copied and a falsy timestamp replaced by the time read while mapping that entry |
| `WalletService.TransactionsKeepHashes` | src/services/walletService.ts:135-147 | when every entry has a value, the list of hashes returned is the provider's list of hashes, in the same order |
| `WalletService.TransactionsIgnoreClock` | src/services/walletService.ts:146 | when every entry has a non-zero timestamp, the result does not depend on the current time |
| `WalletHook.ImportMnemonic` | src/hooks/useWallet.ts:42-56 | a phrase the SDK rejects changes nothing; otherwise the phrase is stored, the stored key text decodes to the derived key, and the address is that key's address |
| `WalletHook.GenerateMnemonic` | src/hooks/useWallet.ts:33-39 | the generated phrase is stored even when importing it throws, and then the key and address keep their old values; on success it is returned and the state is that of importing it |
| `WalletHook.ImportPrivateKey` | src/hooks/useWallet.ts:59-63 | the key text is always stored; the address changes to the derived one exactly when derivation succeeds and keeps its old value when it throws |
| `WalletHook.MnemonicKeyReimports` | src/hooks/useWallet.ts:42-63 | importing the key text that `importMnemonic` stored derives the same address and leaves the state as it was |
| `WalletHook.GetBalance` | src/hooks/useWallet.ts:66-70 | with no address loaded the balance is "0"; otherwise the call succeeds exactly when the address parses and the query succeeds, and then returns the balance in decimal |
| `WalletHook.BuildTransaction` | src/hooks/useWallet.ts:83-92 | the hook's transaction uses chain "D" whatever network is chosen, gas limit 50000, version 1, empty data and no explicit gas price |
| `WalletHook.PrepareSend` | src/hooks/useWallet.ts:74-95 | an empty key or address throws "not loaded"; otherwise it succeeds exactly when the stored hex decodes to a key the SDK accepts, both addresses parse, the nonce query succeeds and the amount parses, and then yields that transaction signed with that key |
| `WalletHook.SendTransaction` | src/hooks/useWallet.ts:73-99 | succeeds exactly when preparation and submission succeed; the guard fails first |
| `WalletHook.StoreWalletEncrypted` | src/hooks/useWallet.ts:102-105 | storage gains the `encryptedPK` entry holding the encrypted key text; every other entry is kept |
| `WalletHook.LoadWalletEncrypted` | src/hooks/useWallet.ts:108-113 | a missing or empty entry does nothing; a blob that does not decrypt throws and changes nothing; otherwise the decrypted text is imported as a private key |
| `WalletHook.StoreThenLoad` | src/hooks/useWallet.ts:102-113 | loading what was stored, with the same password, imports exactly the stored key text |
| `TransferForm.Insert` | src/components/TransferForm.tsx:26 | inserting into a newest-first list keeps it newest first and adds exactly one occurrence of the wallet |
| `TransferForm.SortNewestFirst` | src/components/TransferForm.tsx:26 | the sort returns a permutation of the parsed list ordered by `createdAt`, newest first |
| `TransferForm.HeadIsNewest` | src/components/TransferForm.tsx:26-30 | after the sort, the first wallet is in the list and no wallet is newer than it |
| `TransferForm.Load` | src/components/TransferForm.tsx:20-36 | runs once; reads the stored list sorted newest first; selects the newest wallet, and the hook is left in the state `importPrivateKey` of its key leaves (derived address on success, old address when it throws); no entry just sets `initialized`; unreadable storage is an error |
| `TransferForm.LoadsOnce` | src/components/TransferForm.tsx:21 | a second run of the effect changes nothing, whatever storage holds by then |
| `TransferForm.FindByAddress` | src/components/TransferForm.tsx:39 | `find` returns nothing exactly when no wallet has the address, and otherwise the first wallet that has it |
| `TransferForm.ChangeWallet` | src/components/TransferForm.tsx:38-44 | an unlisted address changes nothing; a listed one has its key imported and becomes the selection exactly when the import does not throw |
| `TransferForm.HandleSend` | src/components/TransferForm.tsx:46-72 | empty fields and non-positive or NaN amounts are rejected before any call; a transfer is sent exactly when validation and the hook's send succeed, which clears the fields; `sending` ends false |
| `TransferForm.RejectedSendIsOffline` | src/components/TransferForm.tsx:47-55 | a transfer rejected by validation has the same outcome whatever the SDK and the network would do |
| `TransferForm.ExponentFormUnparsed` | src/components/TransferForm.tsx:59 | `BigInt` rejects any whitespace-free text that starts with a digit 1..9 and holds a non-digit, the shape of JavaScript's exponent notation |
| `TransferForm.ThousandEgldUnparsed` | src/components/TransferForm.tsx:59 | "1e+21" and "1.5e+21", what the conversion prints for 1000 and 1500 EGLD, have that shape and are rejected |
| `TransferForm.ExponentAmountRejected` | src/components/TransferForm.tsx:46-72 | if the float conversion prints the base units in exponent form, an otherwise valid transfer with a loaded key fails on the amount |
| `Dashboard.UpdateBalance` | src/components/Dashboard.tsx:35-39 | the list keeps its length and order; only the wallet with the given id changes, and only its balance |
| `Dashboard.UpdateBalanceIdempotent` | src/components/Dashboard.tsx:35-39 | applying the same balance update twice is the same as once |
| `Dashboard.TogglePrivateKey` | src/components/Dashboard.tsx:43-45 | the id's visibility flips and every other flag is kept |
| `Dashboard.ToggleTwice` | src/components/Dashboard.tsx:43-45 | toggling an id twice restores what is shown for every id |
| `Dashboard.FirstToggleReveals` | src/components/Dashboard.tsx:44 | the first toggle of a never-toggled wallet reveals its key |
| `Dashboard.BeginRefresh` | src/components/Dashboard.tsx:33 | the id is marked as refreshing, other flags and the list are kept |
| `Dashboard.FinishRefresh` | src/components/Dashboard.tsx:34-40 | the balance lands in the wallet with the id, its flag is cleared, other flags are kept |
| `Dashboard.BeginAll` | src/components/Dashboard.tsx:28 | every listed wallet is marked as refreshing and no set flag is cleared |
| `Dashboard.FinishAllUpdatesEach` | src/components/Dashboard.tsx:32-41 | responses handled in any order each update their own wallet's balance and clear its flag; wallets without a response are untouched (proof by induction over arrivals) |
| `Dashboard.FinishAllKeepsLoading` | src/components/Dashboard.tsx:40 | a cleared refreshing flag stays cleared through later responses |
| `Dashboard.Load` | src/components/Dashboard.tsx:23-30 | no stored entry leaves the page empty; unreadable storage is an error; the balance responses are handled in the completion order `arrivals` |
| `Dashboard.LoadRefreshesEveryWallet` | src/components/Dashboard.tsx:23-30 | after mounting, whatever order the responses complete in, the stored list is shown in stored order, and every wallet holds the balance of its own address and is no longer refreshing |
| `WalletExport.HandleExport` | src/components/WalletExport.tsx:19-34 | no file is produced exactly when the password is empty; otherwise the file is named after the wallet and holds the CryptoJS ciphertext of the wallet's JSON under the password |
| `WalletExport.FileNameShape` | src/components/WalletExport.tsx:32 | the file name is the wallet name followed by "-wallet.json" |
| `WalletImport.ReadWallet` | src/components/WalletImport.tsx:19-22 | a wallet is read exactly when the file parses, its `encrypted` field decrypts under the password, and the plaintext parses as a wallet |
| `WalletImport.ExistingList` | src/components/WalletImport.tsx:24-25 | a missing or empty entry is the empty list; a parsed list is used as is; unreadable storage throws |
| `WalletImport.Restamp` | src/components/WalletImport.tsx:27-31 | the imported wallet gets the new id and creation time and keeps every other field |
| `WalletImport.HandleFileChange` | src/components/WalletImport.tsx:11-45 | no file does nothing; any failure writes nothing; a success writes the old list with exactly one wallet appended at the end |
| `WalletImport.ImportTwiceKeepsBoth` | src/components/WalletImport.tsx:27-33 | importing the same file twice leaves two entries with the same address and different ids: nothing is deduplicated |
| `WalletImport.ExportThenImport` | src/components/WalletImport.tsx:20-31 | importing an exported file with the export password appends the exported wallet with its new id and time, provided JSON and CryptoJS invert each other |

## Behaviour worth knowing

- Importing a wallet file never deduplicates by address; `WalletImport.ImportTwiceKeepsBoth` proves that two entries result.
- A stored list that does not parse is not replaced by an empty list: `JSON.parse` throws inside the effect, modelled as an `Err`.
- A failed balance query, including "account not found", is an error in `WalletService.GetBalance` and `WalletHook.GetBalance`, not a zero balance.
- The dashboard stores whatever text `getBalance` returns, including its "Erro" text on failure, as the balance.
- Sending does not reject equal sender and receiver addresses.
- The hook signs every transaction for chain "D" (devnet), whatever network `WalletService` is set to.
- The conversion of an amount to base units uses floating point, not exact integers.

## Left out

- Cryptographic primitives are opaque function parameters, constrained only where a lemma needs them. This covers PBKDF2, AES-GCM, CryptoJS AES, UTF-8 encoding, BIP-39 and key derivation, bech32, signing and the transaction serialisation.
- Network I/O through `ApiNetworkProvider` is the `Sdk.Gateway` record of possibly failing functions. Which networks the URLs reach, and what they answer, is not modelled.
- `Number(amount)`, `Number(amount) * 1e18` and its `toString()` are floating-point operations. They are the parameters `toNumber` and `toBaseUnits` of `TransferForm.HandleSend`. For amounts of 1000 EGLD or more, `toString()` gives exponent text such as "1e+21", which `BigInt` rejects. `TransferForm.ThousandEgldUnparsed` and `TransferForm.ExponentAmountRejected` show the consequence for the send. That `toString()` prints exponent form from 1e21 up is taken from the JavaScript number-to-string rules, not modelled.
- `getBalance` of `src/utils/multiversx.ts` and its formatting are outside the core. The dashboard takes it as a total function of the address, because that code returns "Erro" rather than throwing.
- The order in which a `forEach` of async balance refreshes completes is the parameter `arrivals` of `Dashboard.Load`. The proof covers every order for lists with distinct ids; duplicate ids are not covered.
- `alert`, `console`, `window.location.reload`, `saveAs`, the `FileReader` and the rendered markup are left out. The file's text is the parameter `content`.
- Concrete JSON text and the shape checks of `JSON.parse` are abstracted. A stored list is "no entry", "unreadable" or "a list of wallets"; text that parses to a non-array is counted as unreadable.
- A `JSON.parse` failure inside a React effect is an uncaught error in the source. It is modelled as an `Err` outcome with no further state change.
- A flag map keyed by an id such as `"__proto__"`, which JavaScript objects treat specially, is modelled as an ordinary key.
- Characters outside the Basic Multilingual Plane are not modelled: `char` stands for one UTF-16 code unit.
- The spread `String.fromCharCode(...resultBuffer)` has an engine limit on argument count for very large buffers. It is not modelled.
- The SDK's default gas price for the hook's transaction is left unspecified (`gasPrice` is `None`).
- `getTransaction` of the provider returns a single transaction object, so the array branch of `getTransactions` is normally not taken. The model still covers both branches.
- `src/components/WalletDashboard.tsx`, `ImportWallet.tsx`, `CreateWallet.tsx`, `CreateOrImport.tsx`, `WalletHome.tsx`, `Tokens.tsx`, `src/config/multiversx.ts` and `src/utils/multiversx.ts` are not part of this model.
- TransferForm.SortNewestFirst: does not state that the sort is stable. `Array.prototype.sort` is stable, and so is the insertion sort of the model, but the contract stops at permutation and order.
- WalletService.GetBalance: assumes `accountOnNetwork.balance.toString()` prints plain decimal digits. The provider's type for `balance` is not part of this model; a bignumber.js value would print exponent form from 1e21 up with its default settings.
- WalletHook.GetBalance: rests on the same assumption about `balance.toString()` as `WalletService.GetBalance`.

=== FILE: base64.dfy ===
/** The browser's `btoa` and `atob` over byte strings: the base64 alphabet of
    section 4 of RFC 4648 with `=` padding on encoding, and the forgiving
    decoder of the HTML standard on decoding (ASCII whitespace ignored,
    padding optional, non-zero trailing bits discarded). A byte string is the
    sequence of character codes 0..255 that `String.fromCharCode` builds and
    `charCodeAt` reads back, so both sides work on bytes directly. */
module Base64 {
  import opened Results
  import opened JsText

  /** `atob` throws an InvalidCharacterError DOMException for every malformed input. */
  datatype Base64Error = InvalidCharacter

  /** A character of the alphabet of Table 1 in section 4 of RFC 4648:
      `A`..`Z`, `a`..`z`, `0`..`9`, `+`, `/`. */
  predicate IsBase64Char(c: char) {
    ('A' <= c <= 'Z') || ('a' <= c <= 'z') || ('0' <= c <= '9') || c == '+' || c == '/'
  }

  /** The index of a character in the alphabet. */
  function SextetValue(c: char): (v: nat)
    requires IsBase64Char(c)
    ensures v < 64
  {
    if 'A' <= c <= 'Z' then c as int - 'A' as int
    else if 'a' <= c <= 'z' then c as int - 'a' as int + 26
    else if '0' <= c <= '9' then c as int - '0' as int + 52
    else if c == '+' then 62
    else 63
  }

  /** The character at index `v` of the alphabet. */
  function SextetChar(v: nat): (c: char)
    requires v < 64
    ensures IsBase64Char(c) && SextetValue(c) == v
  {
    if v < 26 then ('A' as int + v) as char
    else if v < 52 then ('a' as int + v - 26) as char
    else if v < 62 then ('0' as int + v - 52) as char
    else if v == 62 then '+'
    else '/'
  }

  predicate AllBase64(s: string) {
    forall i :: 0 <= i < |s| ==> IsBase64Char(s[i])
  }

  /** Three bytes as four characters. */
  function EncodeGroup(b0: Byte, b1: Byte, b2: Byte): (s: string)
    ensures |s| == 4 && AllBase64(s)
  {
    [SextetChar(b0 / 4), SextetChar((b0 % 4) * 16 + b1 / 16),
     SextetChar((b1 % 16) * 4 + b2 / 64), SextetChar(b2 % 64)]
  }

  /** One or two trailing bytes as two or three characters, without padding. */
  function EncodeTail(bs: seq<Byte>): (s: string)
    requires 1 <= |bs| <= 2
    ensures |s| == |bs| + 1 && AllBase64(s)
  {
    if |bs| == 1 then [SextetChar(bs[0] / 4), SextetChar((bs[0] % 4) * 16)]
    else [SextetChar(bs[0] / 4), SextetChar((bs[0] % 4) * 16 + bs[1] / 16), SextetChar((bs[1] % 16) * 4)]
  }

  /** The unpadded characters for a byte string: four per full group of three
      bytes, then two characters for one trailing byte or three for two. */
  function EncodeUnpadded(bs: seq<Byte>): (s: string)
    decreases |bs|
  {
    if |bs| == 0 then []
    else if |bs| < 3 then EncodeTail(bs)
    else EncodeGroup(bs[0], bs[1], bs[2]) + EncodeUnpadded(bs[3..])
  }

  lemma {:induction false} EncodeUnpaddedShape(bs: seq<Byte>)
    ensures AllBase64(EncodeUnpadded(bs))
    ensures |EncodeUnpadded(bs)| == 4 * (|bs| / 3) + (if |bs| % 3 == 0 then 0 else |bs| % 3 + 1)
    decreases |bs|
  {
    if |bs| >= 3 {
      EncodeUnpaddedShape(bs[3..]);
      var g := EncodeGroup(bs[0], bs[1], bs[2]);
      var t := EncodeUnpadded(bs[3..]);
      assert forall i :: 0 <= i < |g + t| ==> (g + t)[i] == (if i < 4 then g[i] else t[i - 4]);
    }
  }

  function Padding(n: nat): string {
    if n % 3 == 1 then "==" else if n % 3 == 2 then "=" else ""
  }

  /** `btoa(String.fromCharCode(...bs))`. */
  function Encode(bs: seq<Byte>): (s: string)
    ensures |s| % 4 == 0
    ensures |s| == 4 * ((|bs| + 2) / 3)
  {
    EncodeUnpaddedShape(bs);
    EncodeUnpadded(bs) + Padding(|bs|)
  }

  /** Test vectors of section 10 of RFC 4648, which pin the alphabet and the
      bit order: "foo" is "Zm9v", "fo" is "Zm8=" and "f" is "Zg==". */
  lemma KnownAnswerFoo()
    ensures Encode([102, 111, 111]) == "Zm9v"
  {
    assert SextetChar(25) == 'Z' && SextetChar(38) == 'm' && SextetChar(61) == '9' && SextetChar(47) == 'v';
    assert EncodeUnpadded([102, 111, 111]) == EncodeGroup(102, 111, 111) + EncodeUnpadded([]);
  }

  lemma KnownAnswerFo()
    ensures Encode([102, 111]) == "Zm8="
  {
    assert SextetChar(25) == 'Z' && SextetChar(38) == 'm' && SextetChar(60) == '8';
  }

  lemma KnownAnswerF()
    ensures Encode([102]) == "Zg=="
  {
    assert SextetChar(25) == 'Z' && SextetChar(32) == 'g';
  }

  predicate IsAsciiWhitespace(c: char) {
    c == '\t' || c == '\n' || c == '\U{000C}' || c == '\r' || c == ' '
  }

  function RemoveWhitespace(s: string): (t: string)
    ensures forall i :: 0 <= i < |t| ==> !IsAsciiWhitespace(t[i])
    ensures (forall i :: 0 <= i < |s| ==> !IsAsciiWhitespace(s[i])) ==> t == s
    decreases |s|
  {
    if s == [] then []
    else (if IsAsciiWhitespace(s[0]) then [] else [s[0]]) + RemoveWhitespace(s[1..])
  }

  /** Step 2 of forgiving-base64 decode: on a length divisible by four, drop
      one or two trailing `=`. */
  function StripPadding(t: string): (u: string)
    ensures |u| <= |t| && u == t[..|u|]
  {
    if |t| % 4 == 0 && |t| >= 2 && t[|t| - 2..] == "==" then t[..|t| - 2]
    else if |t| % 4 == 0 && |t| >= 1 && t[|t| - 1] == '=' then t[..|t| - 1]
    else t
  }

  /** Four characters as three bytes. */
  function DecodeGroup(s: string): (bs: seq<Byte>)
    requires |s| == 4 && AllBase64(s)
    ensures |bs| == 3
  {
    [SextetValue(s[0]) * 4 + SextetValue(s[1]) / 16,
     (SextetValue(s[1]) % 16) * 16 + SextetValue(s[2]) / 4,
     (SextetValue(s[2]) % 4) * 64 + SextetValue(s[3])]
  }

  /** A final 12 bits give one byte and a final 18 bits two; the left-over
      low bits are discarded. */
  function DecodeTail(s: string): (bs: seq<Byte>)
    requires 2 <= |s| <= 3 && AllBase64(s)
    ensures |bs| == |s| - 1
  {
    if |s| == 2 then [SextetValue(s[0]) * 4 + SextetValue(s[1]) / 16]
    else [SextetValue(s[0]) * 4 + SextetValue(s[1]) / 16,
          (SextetValue(s[1]) % 16) * 16 + SextetValue(s[2]) / 4]
  }

  /** Decoding of validated characters, four at a time. */
  function DecodeGroups(u: string): (bs: seq<Byte>)
    requires AllBase64(u)
    requires |u| % 4 != 1
    decreases |u|
  {
    if |u| == 0 then []
    else if |u| < 4 then DecodeTail(u)
    else DecodeGroup(u[..4]) + DecodeGroups(u[4..])
  }

  /** The first byte is the six bits of the first character and the top two
      of the second. */
  lemma FirstByteBack(b0: Byte, b1: Byte)
    ensures (b0 / 4) * 4 + ((b0 % 4) * 16 + b1 / 16) / 16 == b0
  {
    var hi := b1 / 16;
    assert 0 <= hi < 16;
    assert ((b0 % 4) * 16 + hi) / 16 == b0 % 4;
  }

  /** The second byte is the low four bits of the second character and the
      top four of the third. */
  lemma SecondByteBack(b0: Byte, b1: Byte, b2: Byte)
    ensures (((b0 % 4) * 16 + b1 / 16) % 16) * 16 + ((b1 % 16) * 4 + b2 / 64) / 4 == b1
  {
    var hi := b1 / 16;
    var top := b2 / 64;
    assert 0 <= hi < 16 && 0 <= top < 4;
    assert ((b0 % 4) * 16 + hi) % 16 == hi;
    assert ((b1 % 16) * 4 + top) / 4 == b1 % 16;
  }

  /** The third byte is the low two bits of the third character and the
      fourth character. */
  lemma ThirdByteBack(b1: Byte, b2: Byte)
    ensures (((b1 % 16) * 4 + b2 / 64) % 4) * 64 + b2 % 64 == b2
  {
    var top := b2 / 64;
    assert 0 <= top < 4;
    assert ((b1 % 16) * 4 + top) % 4 == top;
  }

  lemma GroupRoundTrip(b0: Byte, b1: Byte, b2: Byte)
    ensures DecodeGroup(EncodeGroup(b0, b1, b2)) == [b0, b1, b2]
  {
    var s := EncodeGroup(b0, b1, b2);
    assert SextetValue(s[0]) == b0 / 4;
    assert SextetValue(s[1]) == (b0 % 4) * 16 + b1 / 16;
    assert SextetValue(s[2]) == (b1 % 16) * 4 + b2 / 64;
    assert SextetValue(s[3]) == b2 % 64;
    FirstByteBack(b0, b1);
    SecondByteBack(b0, b1, b2);
    ThirdByteBack(b1, b2);
  }

  lemma TailRoundTrip(bs: seq<Byte>)
    requires 1 <= |bs| <= 2
    ensures DecodeTail(EncodeTail(bs)) == bs
  {
    var s := EncodeTail(bs);
    assert SextetValue(s[0]) == bs[0] / 4;
    if |bs| == 2 {
      assert SextetValue(s[1]) == (bs[0] % 4) * 16 + bs[1] / 16;
      assert SextetValue(s[2]) == (bs[1] % 16) * 4;
    } else {
      assert SextetValue(s[1]) == (bs[0] % 4) * 16;
    }
  }

  /** `atob(s)`, read back as character codes. */
  function Decode(s: string): (r: Result<seq<Byte>, Base64Error>)
    ensures r.Err? <==> |StripPadding(RemoveWhitespace(s))| % 4 == 1 || !AllBase64(StripPadding(RemoveWhitespace(s)))
    ensures r.Ok? ==> |r.value| == (|StripPadding(RemoveWhitespace(s))| * 3) / 4
  {
    var u := StripPadding(RemoveWhitespace(s));
    if |u| % 4 == 1 then Err(InvalidCharacter)
    else if exists i :: 0 <= i < |u| && !IsBase64Char(u[i]) then Err(InvalidCharacter)
    else
      DecodeGroupsLength(u);
      Ok(DecodeGroups(u))
  }

  lemma {:induction false} DecodeGroupsLength(u: string)
    requires AllBase64(u)
    requires |u| % 4 != 1
    ensures |DecodeGroups(u)| == (|u| * 3) / 4
    decreases |u|
  {
    if |u| >= 4 {
      DecodeGroupsLength(u[4..]);
    }
  }

  lemma DecodeGroupsAppend(g: string, t: string)
    requires |g| == 4 && AllBase64(g) && AllBase64(t) && |t| % 4 != 1
    ensures AllBase64(g + t) && |g + t| % 4 != 1
    ensures DecodeGroups(g + t) == DecodeGroup(g) + DecodeGroups(t)
  {
    var u := g + t;
    assert forall i :: 0 <= i < |u| ==> u[i] == (if i < 4 then g[i] else t[i - 4]);
    assert u[..4] == g;
    assert u[4..] == t;
  }

  /** Decoding the characters written for a byte string gives the bytes back. */
  lemma {:induction false} DecodeGroupsOfEncoded(bs: seq<Byte>)
    ensures AllBase64(EncodeUnpadded(bs)) && |EncodeUnpadded(bs)| % 4 != 1
    ensures DecodeGroups(EncodeUnpadded(bs)) == bs
    decreases |bs|
  {
    EncodeUnpaddedShape(bs);
    if 1 <= |bs| < 3 {
      TailRoundTrip(bs);
    } else if |bs| >= 3 {
      var g := EncodeGroup(bs[0], bs[1], bs[2]);
      var t := EncodeUnpadded(bs[3..]);
      DecodeGroupsOfEncoded(bs[3..]);
      DecodeGroupsAppend(g, t);
      GroupRoundTrip(bs[0], bs[1], bs[2]);
      assert bs == [bs[0], bs[1], bs[2]] + bs[3..];
    }
  }

  /** The padding step of `atob` removes exactly the padding `btoa` added. */
  lemma StripPaddingOfEncoded(bs: seq<Byte>)
    ensures StripPadding(Encode(bs)) == EncodeUnpadded(bs)
  {
    var u := EncodeUnpadded(bs);
    var s := Encode(bs);
    EncodeUnpaddedShape(bs);
    assert s == u + Padding(|bs|);
    if |bs| % 3 == 0 {
      if |u| > 0 {
        assert s[|s| - 1] == u[|u| - 1];
      }
    } else if |bs| % 3 == 2 {
      assert s[|s| - 2..] == [u[|u| - 1], '='];
      assert s[..|s| - 1] == u;
    } else {
      assert s[|s| - 2..] == "==";
      assert s[..|s| - 2] == u;
    }
  }

  /** `atob(btoa(x)) == x` on every byte string: the round trip the encrypted
      blob relies on. */
  lemma DecodeEncode(bs: seq<Byte>)
    ensures Decode(Encode(bs)) == Ok(bs)
  {
    var s := Encode(bs);
    var u := EncodeUnpadded(bs);
    EncodeUnpaddedShape(bs);
    assert forall i :: 0 <= i < |s| ==> !IsAsciiWhitespace(s[i]) by {
      forall i | 0 <= i < |s|
        ensures !IsAsciiWhitespace(s[i])
      {
        if i < |u| {
          assert s[i] == u[i];
        } else {
          assert s[i] == Padding(|bs|)[i - |u|];
        }
      }
    }
    assert RemoveWhitespace(s) == s;
    StripPaddingOfEncoded(bs);
    DecodeGroupsOfEncoded(bs);
  }
}

=== FILE: crypto.dfy ===
/** `src/utils/crypto.ts`: password-based encryption of a string into a base64
    blob, and its inverse. The blob is salt (16 bytes) ∥ iv (12 bytes) ∥
    AES-GCM ciphertext, base64-encoded. PBKDF2, AES-GCM, `TextEncoder` and
    `TextDecoder` are WebCrypto and platform calls; they are the fields of a
    `Suite`, and the salt and iv drawn from `getRandomValues` are parameters. */
module Crypto {
  import opened Results
  import opened JsText
  import Base64

  datatype KdfParams = Pbkdf2(iterations: nat, hash: string)
  datatype CipherParams = AesGcm(keyLength: nat)

  /** The parameters both directions pass to `deriveKey` and to the cipher. */
  const KeyDerivation: KdfParams := Pbkdf2(100000, "SHA-256")
  const Cipher: CipherParams := AesGcm(256)

  const SaltLength: nat := 16
  const IvLength: nat := 12

  /** AES-GCM decryption fails when the authentication tag does not match. */
  datatype CipherError = TagMismatch

  /** The platform calls: UTF-8 encoding and decoding of strings, PBKDF2 key
      derivation from password bytes and a salt, and AES-GCM under a key and iv. */
  datatype Suite = Suite(
    utf8Encode: string -> seq<Byte>,
    utf8Decode: seq<Byte> -> string,
    deriveKey: (KdfParams, seq<Byte>, seq<Byte>) -> seq<Byte>,
    encrypt: (CipherParams, seq<Byte>, seq<Byte>, seq<Byte>) -> seq<Byte>,
    decrypt: (CipherParams, seq<Byte>, seq<Byte>, seq<Byte>) -> Result<seq<Byte>, CipherError>)

  /** AES-GCM decryption undoes encryption under the same key and iv. */
  ghost predicate CipherInverts(suite: Suite) {
    forall key, iv, plaintext :: suite.decrypt(Cipher, key, iv, suite.encrypt(Cipher, key, iv, plaintext)) == Ok(plaintext)
  }

  /** The three parts of a blob before base64. */
  datatype Frame = Frame(salt: seq<Byte>, iv: seq<Byte>, ciphertext: seq<Byte>)

  /** The result buffer `encryptData` fills with `set` at offsets 0, 16 and 28. */
  function Pack(f: Frame): (blob: seq<Byte>)
    requires |f.salt| == SaltLength && |f.iv| == IvLength
    ensures |blob| == SaltLength + IvLength + |f.ciphertext|
    ensures blob[..SaltLength] == f.salt
    ensures blob[SaltLength..SaltLength + IvLength] == f.iv
    ensures blob[SaltLength + IvLength..] == f.ciphertext
  {
    f.salt + f.iv + f.ciphertext
  }

  /** `Uint8Array.prototype.slice(lo, hi)` for non-negative bounds, which are
      clamped to the length. */
  function Slice(b: seq<Byte>, lo: nat, hi: nat): (s: seq<Byte>)
    ensures hi <= |b| && lo <= hi ==> s == b[lo..hi]
    ensures lo <= |b| < hi ==> s == b[lo..]
    ensures |b| <= lo || hi <= lo ==> s == []
    ensures |s| <= |b|
  {
    var h := if hi <= |b| then hi else |b|;
    var l := if lo <= h then lo else h;
    b[l..h]
  }

  /** The split `decryptData` performs at offsets 16 and 28. */
  function Unpack(blob: seq<Byte>): (f: Frame)
    ensures |blob| >= SaltLength + IvLength ==>
      |f.salt| == SaltLength && |f.iv| == IvLength && f.salt + f.iv + f.ciphertext == blob
    ensures |blob| < SaltLength + IvLength ==> f.ciphertext == [] && f.salt + f.iv == blob
  {
    Frame(Slice(blob, 0, 16), Slice(blob, 16, 28), Slice(blob, 28, |blob|))
  }

  /** Splitting a packed blob recovers exactly the salt, iv and ciphertext. */
  lemma UnpackPack(f: Frame)
    requires |f.salt| == SaltLength && |f.iv| == IvLength
    ensures Unpack(Pack(f)) == f
  {
  }

  /** The AES key derived from a password and salt, as both directions derive it. */
  function PasswordKey(suite: Suite, password: string, salt: seq<Byte>): seq<Byte> {
    suite.deriveKey(KeyDerivation, suite.utf8Encode(password), salt)
  }

  /** The ciphertext (with tag) of `data` under `password`, `salt` and `iv`. */
  function Seal(suite: Suite, data: string, password: string, salt: seq<Byte>, iv: seq<Byte>): seq<Byte> {
    suite.encrypt(Cipher, PasswordKey(suite, password, salt), iv, suite.utf8Encode(data))
  }

  /** `encryptData(data, password)` with the random salt and iv given. */
  function EncryptData(suite: Suite, data: string, password: string, salt: seq<Byte>, iv: seq<Byte>): (blob64: string)
    requires |salt| == SaltLength && |iv| == IvLength
    ensures Base64.Decode(blob64).Ok?
    ensures var blob := Base64.Decode(blob64).value;
      && |blob| == SaltLength + IvLength + |Seal(suite, data, password, salt, iv)|
      && blob[..SaltLength] == salt
      && blob[SaltLength..SaltLength + IvLength] == iv
      && blob[SaltLength + IvLength..] == Seal(suite, data, password, salt, iv)
  {
    var blob := Pack(Frame(salt, iv, Seal(suite, data, password, salt, iv)));
    Base64.DecodeEncode(blob);
    Base64.Encode(blob)
  }

  /** `decryptData` rejects text `atob` cannot decode, and a blob whose tag does
      not verify under the password. */
  datatype DecryptError = MalformedBase64 | DecryptionFailed

  /** `decryptData(blob64, password)`. */
  function DecryptData(suite: Suite, blob64: string, password: string): (r: Result<string, DecryptError>)
    ensures Base64.Decode(blob64).Err? ==> r == Err(MalformedBase64)
    ensures Base64.Decode(blob64).Ok? ==>
      var f := Unpack(Base64.Decode(blob64).value);
      var plain := suite.decrypt(Cipher, PasswordKey(suite, password, f.salt), f.iv, f.ciphertext);
      && (r.Ok? <==> plain.Ok?)
      && (plain.Err? ==> r == Err(DecryptionFailed))
      && (plain.Ok? ==> r.value == suite.utf8Decode(plain.value))
  {
    match Base64.Decode(blob64)
    case Err(_) => Err(MalformedBase64)
    case Ok(blob) =>
      var f := Unpack(blob);
      match suite.decrypt(Cipher, PasswordKey(suite, password, f.salt), f.iv, f.ciphertext)
      case Err(_) => Err(DecryptionFailed)
      case Ok(plain) => Ok(suite.utf8Decode(plain))
  }

  /** Decrypting with the password used to encrypt gives the data back: the
      decoder sees the same salt, so derives the same key with the same
      parameters, and sees the same iv and ciphertext. */
  lemma DecryptEncrypt(suite: Suite, data: string, password: string, salt: seq<Byte>, iv: seq<Byte>)
    requires |salt| == SaltLength && |iv| == IvLength
    requires CipherInverts(suite)
    requires suite.utf8Decode(suite.utf8Encode(data)) == data
    ensures var f := Unpack(Base64.Decode(EncryptData(suite, data, password, salt, iv)).value);
      PasswordKey(suite, password, f.salt) == PasswordKey(suite, password, salt) && f.iv == iv
    ensures DecryptData(suite, EncryptData(suite, data, password, salt, iv), password) == Ok(data)
  {
    var ct := Seal(suite, data, password, salt, iv);
    var blob := Pack(Frame(salt, iv, ct));
    Base64.DecodeEncode(blob);
    UnpackPack(Frame(salt, iv, ct));
    assert suite.decrypt(Cipher, PasswordKey(suite, password, salt), iv, ct) == Ok(suite.utf8Encode(data));
  }
}

=== FILE: dashboard.dfy ===
/** `src/components/Dashboard.tsx`: the list of stored wallets with their
    balances, the per-wallet "show private key" flags and the per-wallet
    "refreshing" flags. `getBalance` of `src/utils/multiversx.ts` never throws
    (it returns a formatted balance or "Erro"), so it is a total function of
    the address. */
module Dashboard {
  import opened Results
  import opened Wallets

  datatype Board = Board(wallets: seq<Wallet>, showKey: map<string, bool>, loading: map<string, bool>)

  const Initial: Board := Board([], map[], map[])

  /** `a` and `b` agree on every field except possibly `balance`. */
  predicate SameExceptBalance(a: Wallet, b: Wallet) {
    a.(balance := b.balance) == b
  }

  /** The list map of `updateBalance`: the wallet with the matching id gets the
      new balance. */
  function UpdateBalance(ws: seq<Wallet>, id: string, balance: string): (r: seq<Wallet>)
    ensures |r| == |ws|
    ensures forall i :: 0 <= i < |ws| ==> SameExceptBalance(r[i], ws[i])
    ensures forall i :: 0 <= i < |ws| && ws[i].id != id ==> r[i] == ws[i]
    ensures forall i :: 0 <= i < |ws| && ws[i].id == id ==> r[i].balance == Some(balance)
  {
    seq(|ws|, i requires 0 <= i < |ws| => if ws[i].id == id then ws[i].(balance := Some(balance)) else ws[i])
  }

  /** Refreshing a balance twice with the same value is the same as once. */
  lemma UpdateBalanceIdempotent(ws: seq<Wallet>, id: string, balance: string)
    ensures UpdateBalance(UpdateBalance(ws, id, balance), id, balance) == UpdateBalance(ws, id, balance)
  {
  }

  /** `showPrivateKeyMap[id]` as the page reads it: an absent flag is hidden. */
  predicate IsShown(flags: map<string, bool>, id: string) {
    id in flags && flags[id]
  }

  /** `togglePrivateKey(id)`: `{ ...prev, [id]: !prev[id] }`. */
  function TogglePrivateKey(flags: map<string, bool>, id: string): (r: map<string, bool>)
    ensures IsShown(r, id) == !IsShown(flags, id)
    ensures r.Keys == flags.Keys + {id}
    ensures forall k :: k in flags && k != id ==> r[k] == flags[k]
  {
    flags[id := !IsShown(flags, id)]
  }

  /** Toggling twice restores what is shown for every id. */
  lemma ToggleTwice(flags: map<string, bool>, id: string, other: string)
    ensures IsShown(TogglePrivateKey(TogglePrivateKey(flags, id), id), other) == IsShown(flags, other)
  {
  }

  /** The first toggle of a wallet never toggled before reveals its key. */
  lemma FirstToggleReveals(flags: map<string, bool>, id: string)
    requires id !in flags
    ensures IsShown(TogglePrivateKey(flags, id), id)
  {
  }

  /** The synchronous half of `updateBalance(id, address)`: mark the id as
      refreshing before the fetch. */
  function BeginRefresh(b: Board, id: string): (r: Board)
    ensures r.loading.Keys == b.loading.Keys + {id} && r.loading[id]
    ensures forall k :: k in b.loading && k != id ==> r.loading[k] == b.loading[k]
    ensures r.wallets == b.wallets && r.showKey == b.showKey
  {
    b.(loading := b.loading[id := true])
  }

  /** The half after `await getBalance(address)`: store the balance into the
      wallet with that id, then clear its refreshing flag. */
  function FinishRefresh(b: Board, id: string, balance: string): (r: Board)
    ensures id in r.loading && !r.loading[id]
    ensures forall k :: k in b.loading && k != id ==> k in r.loading && r.loading[k] == b.loading[k]
    ensures r.wallets == UpdateBalance(b.wallets, id, balance) && r.showKey == b.showKey
  {
    b.(wallets := UpdateBalance(b.wallets, id, balance), loading := b.loading[id := false])
  }

  /** Every wallet of the list marked as refreshing, as the `forEach` does
      before any response arrives. */
  function BeginAll(b: Board, ws: seq<Wallet>): (r: Board)
    ensures r.wallets == b.wallets && r.showKey == b.showKey
    ensures forall w :: w in ws ==> w.id in r.loading && r.loading[w.id]
    ensures forall k :: k in b.loading && b.loading[k] ==> k in r.loading && r.loading[k]
    decreases |ws|
  {
    if ws == [] then b else BeginAll(BeginRefresh(b, ws[0].id), ws[1..])
  }

  /** The responses, handled in the order they arrive. */
  function FinishAll(b: Board, arrivals: seq<Wallet>, getBalance: string -> string): (r: Board)
    decreases |arrivals|
  {
    if arrivals == [] then b
    else FinishAll(FinishRefresh(b, arrivals[0].id, getBalance(arrivals[0].address)), arrivals[1..], getBalance)
  }

  predicate DistinctIds(ws: seq<Wallet>) {
    forall i, j :: 0 <= i < j < |ws| ==> ws[i].id != ws[j].id
  }

  /** Handling responses that each belong to a wallet of the list, in any order,
      leaves the list's order and non-balance fields alone; each wallet that got
      a response holds its own balance and is no longer refreshing, and each
      other wallet is untouched. Ids are uuids, so distinct. */
  lemma {:induction false} FinishAllUpdatesEach(b: Board, ws: seq<Wallet>, arrivals: seq<Wallet>, getBalance: string -> string)
    requires DistinctIds(ws)
    requires |b.wallets| == |ws| && forall i :: 0 <= i < |ws| ==> SameExceptBalance(b.wallets[i], ws[i])
    requires forall a :: a in arrivals ==> a in ws
    ensures var r := FinishAll(b, arrivals, getBalance);
      && |r.wallets| == |ws|
      && (forall i :: 0 <= i < |ws| ==> SameExceptBalance(r.wallets[i], ws[i]))
      && (forall i :: 0 <= i < |ws| && ws[i] in arrivals ==>
            r.wallets[i].balance == Some(getBalance(ws[i].address))
            && ws[i].id in r.loading && !r.loading[ws[i].id])
      && (forall i :: 0 <= i < |ws| && ws[i] !in arrivals ==> r.wallets[i] == b.wallets[i])
    decreases |arrivals|
  {
    if arrivals != [] {
      var a := arrivals[0];
      var b' := FinishRefresh(b, a.id, getBalance(a.address));
      forall i | 0 <= i < |ws|
        ensures SameExceptBalance(b'.wallets[i], ws[i])
        ensures ws[i] != a ==> b'.wallets[i] == b.wallets[i]
      {
        if ws[i] != a {
          assert a in arrivals;
          var j :| 0 <= j < |ws| && ws[j] == a;
          assert j != i;
          assert ws[i].id != a.id;
          assert b.wallets[i].id == ws[i].id;
        }
      }
      FinishAllUpdatesEach(b', ws, arrivals[1..], getBalance);
      var r := FinishAll(b, arrivals, getBalance);
      assert r == FinishAll(b', arrivals[1..], getBalance);
      forall i | 0 <= i < |ws| && ws[i] in arrivals && ws[i] !in arrivals[1..]
        ensures r.wallets[i].balance == Some(getBalance(ws[i].address))
        ensures ws[i].id in r.loading && !r.loading[ws[i].id]
      {
        assert ws[i] == a;
        assert b.wallets[i].id == a.id;
        assert r.wallets[i] == b'.wallets[i];
        assert a.id in b'.loading && !b'.loading[a.id];
        FinishAllKeepsLoading(b', arrivals[1..], getBalance, a.id);
      }
      forall i | 0 <= i < |ws| && ws[i] !in arrivals
        ensures r.wallets[i] == b.wallets[i]
      {
        assert ws[i] != a && ws[i] !in arrivals[1..];
      }
    }
  }

  /** A flag cleared before the remaining responses stays cleared: each
      response only ever clears a flag. */
  lemma {:induction false} FinishAllKeepsLoading(b: Board, arrivals: seq<Wallet>, getBalance: string -> string, id: string)
    requires id in b.loading && !b.loading[id]
    ensures id in FinishAll(b, arrivals, getBalance).loading && !FinishAll(b, arrivals, getBalance).loading[id]
    decreases |arrivals|
  {
    if arrivals != [] {
      FinishAllKeepsLoading(FinishRefresh(b, arrivals[0].id, getBalance(arrivals[0].address)), arrivals[1..], getBalance, id);
    }
  }

  /** `JSON.parse` threw inside the effect. */
  datatype BoardError = UnreadableStorage

  /** The mount effect: show the stored list, mark every wallet as refreshing,
      and handle the balance responses in the order `arrivals` they complete. */
  function Load(stored: StoredWallets, arrivals: seq<Wallet>, getBalance: string -> string): (r: Result<Board, BoardError>)
    ensures r.Err? <==> stored.Unparseable?
    ensures stored.NoEntry? ==> r == Ok(Initial)
  {
    match stored
    case NoEntry => Ok(Initial)
    case Unparseable => Err(UnreadableStorage)
    case Stored(ws) => Ok(FinishAll(BeginAll(Board(ws, map[], map[]), ws), arrivals, getBalance))
  }

  /** After loading, whatever order the responses complete in, the list is
      the stored list in stored order, and every wallet shows the balance
      fetched for its own address and is no longer refreshing. */
  lemma LoadRefreshesEveryWallet(ws: seq<Wallet>, arrivals: seq<Wallet>, getBalance: string -> string)
    requires DistinctIds(ws)
    requires forall w :: w in ws ==> w in arrivals
    requires forall a :: a in arrivals ==> a in ws
    ensures Load(Stored(ws), arrivals, getBalance).Ok?
    ensures var b := Load(Stored(ws), arrivals, getBalance).value;
      && |b.wallets| == |ws|
      && forall i :: 0 <= i < |ws| ==>
           && SameExceptBalance(b.wallets[i], ws[i])
           && b.wallets[i].balance == Some(getBalance(ws[i].address))
           && ws[i].id in b.loading && !b.loading[ws[i].id]
  {
    var start := BeginAll(Board(ws, map[], map[]), ws);
    forall i | 0 <= i < |ws|
      ensures SameExceptBalance(start.wallets[i], ws[i])
    {
    }
    FinishAllUpdatesEach(start, ws, arrivals, getBalance);
  }
}

=== FILE: jstext.dfy ===
/** The pieces of JavaScript's string and number semantics that the wallet's
    pure logic relies on: the whitespace set of `String.prototype.trim`, hex and
    decimal digits, `parseInt(pair, 16)`, `BigInt(string)`, the plain decimal
    text of a natural number, and the `ToUint8` store into a `Uint8Array`.
    A JavaScript string is a sequence of UTF-16 code units; here it is a
    `seq<char>`, so characters outside the Basic Multilingual Plane are not
    represented. */
module JsText {
  import opened Results

  /** One element of a `Uint8Array`. */
  type Byte = b: int | 0 <= b < 256

  /** ToUint8 of an integral number: reduction modulo 2^8 into 0..255. */
  function ToUint8(n: int): (b: Byte)
    ensures 0 <= n < 256 ==> b == n
    ensures (n - b) % 256 == 0
  {
    n % 256
  }

  /** WhiteSpace and LineTerminator code points of ECMAScript: TAB, VT, FF, SP,
      NBSP, ZWNBSP, the category Zs, LF, CR, LS and PS. */
  predicate IsWhitespace(c: char) {
    || c == '\t' || c == '\U{000B}' || c == '\U{000C}' || c == ' '
    || c == '\U{00A0}' || c == '\U{FEFF}'
    || c == '\U{1680}' || ('\U{2000}' <= c <= '\U{200A}') || c == '\U{202F}'
    || c == '\U{205F}' || c == '\U{3000}'
    || c == '\n' || c == '\r' || c == '\U{2028}' || c == '\U{2029}'
  }

  predicate IsHexDigit(c: char) {
    ('0' <= c <= '9') || ('a' <= c <= 'f') || ('A' <= c <= 'F')
  }

  function HexDigitValue(c: char): (v: nat)
    requires IsHexDigit(c)
    ensures v < 16
    ensures ('0' <= c <= '9') <==> v < 10
  {
    if '0' <= c <= '9' then c as int - '0' as int
    else if 'a' <= c <= 'f' then c as int - 'a' as int + 10
    else c as int - 'A' as int + 10
  }

  /** A digit of `radix` (2, 8, 10 or 16) in either letter case. */
  predicate IsDigitOf(c: char, radix: nat)
    requires 2 <= radix <= 16
  {
    IsHexDigit(c) && HexDigitValue(c) < radix
  }

  predicate AllDigitsOf(s: string, radix: nat)
    requires 2 <= radix <= 16
  {
    forall i :: 0 <= i < |s| ==> IsDigitOf(s[i], radix)
  }

  /** The value of a non-empty run of digits, most significant digit first. */
  function DigitsValue(s: string, radix: nat): nat
    requires 2 <= radix <= 16 && AllDigitsOf(s, radix)
    decreases |s|
  {
    if s == [] then 0
    else DigitsValue(s[..|s| - 1], radix) * radix + HexDigitValue(s[|s| - 1])
  }

  /** `parseInt(s, 16)` for a two-character string `s = [c0, c1]`; `None` is NaN.
      Leading whitespace and one sign character are skipped, then the longest
      run of hex digits is read, after a `0x` or `0X` prefix is stripped; no
      digit at all is NaN, so `"0x"` is NaN. */
  function ParseHexPair(c0: char, c1: char): (r: Option<int>)
    ensures IsHexDigit(c0) && IsHexDigit(c1) ==> r == Some(16 * HexDigitValue(c0) + HexDigitValue(c1))
    ensures !IsHexDigit(c0) && !IsHexDigit(c1) ==> r == None
    ensures c0 == '0' && (c1 == 'x' || c1 == 'X') ==> r == None
    ensures r.Some? ==> -16 < r.value < 256
  {
    if c0 == '0' && (c1 == 'x' || c1 == 'X') then None
    else if IsHexDigit(c0) then
      if IsHexDigit(c1) then Some(16 * HexDigitValue(c0) + HexDigitValue(c1))
      else Some(HexDigitValue(c0))
    else if !IsHexDigit(c1) then None
    else if IsWhitespace(c0) || c0 == '+' then Some(HexDigitValue(c1))
    else if c0 == '-' then Some(-(HexDigitValue(c1) as int))
    else None
  }

  function TrimStart(s: string): (t: string)
    ensures |t| <= |s| && t == s[|s| - |t|..]
    ensures t != [] ==> !IsWhitespace(t[0])
    decreases |s|
  {
    if s != [] && IsWhitespace(s[0]) then TrimStart(s[1..]) else s
  }

  function TrimEnd(s: string): (t: string)
    ensures |t| <= |s| && t == s[..|t|]
    ensures t != [] ==> !IsWhitespace(t[|t| - 1])
    decreases |s|
  {
    if s != [] && IsWhitespace(s[|s| - 1]) then TrimEnd(s[..|s| - 1]) else s
  }

  /** `s.trim()`. */
  function Trim(s: string): string {
    TrimEnd(TrimStart(s))
  }

  function ParseDigits(s: string, radix: nat): (r: Option<nat>)
    requires 2 <= radix <= 16
    ensures r.Some? <==> s != [] && AllDigitsOf(s, radix)
  {
    if s != [] && AllDigitsOf(s, radix) then Some(DigitsValue(s, radix)) else None
  }

  /** `BigInt(s)` for a string: after trimming, the empty string is 0n; a
      `0x`/`0o`/`0b` prefix (either case, no sign) selects radix 16, 8 or 2;
      otherwise an optional sign and decimal digits. Anything else throws a
      SyntaxError, here `None`. */
  function ParseBigInt(s: string): (r: Option<int>)
    ensures Trim(s) == [] ==> r == Some(0)
    ensures Trim(s) != [] && AllDigitsOf(Trim(s), 10) ==> r == Some(DigitsValue(Trim(s), 10))
    ensures r.Some? && r.value < 0 ==> Trim(s)[0] == '-'
    ensures |Trim(s)| >= 2 && Trim(s)[0] == '-' && AllDigitsOf(Trim(s)[1..], 10) ==>
      r == Some(-(DigitsValue(Trim(s)[1..], 10) as int))
    ensures |Trim(s)| >= 2 && Trim(s)[0] == '+' && AllDigitsOf(Trim(s)[1..], 10) ==>
      r == Some(DigitsValue(Trim(s)[1..], 10))
    ensures Trim(s) != [] && (Trim(s)[0] == '-' || Trim(s)[0] == '+') && !(|Trim(s)| >= 2 && AllDigitsOf(Trim(s)[1..], 10)) ==>
      r == None
    ensures Trim(s) != [] && '1' <= Trim(s)[0] <= '9' && !AllDigitsOf(Trim(s), 10) ==> r == None
  {
    var t := Trim(s);
    if t == [] then Some(0)
    else if |t| >= 2 && t[0] == '0' && (t[1] == 'x' || t[1] == 'X') then ToInt(ParseDigits(t[2..], 16))
    else if |t| >= 2 && t[0] == '0' && (t[1] == 'o' || t[1] == 'O') then ToInt(ParseDigits(t[2..], 8))
    else if |t| >= 2 && t[0] == '0' && (t[1] == 'b' || t[1] == 'B') then ToInt(ParseDigits(t[2..], 2))
    else if t[0] == '-' then Negate(ParseDigits(t[1..], 10))
    else if t[0] == '+' then ToInt(ParseDigits(t[1..], 10))
    else ToInt(ParseDigits(t, 10))
  }

  function ToInt(o: Option<nat>): Option<int> {
    match o
    case None => None
    case Some(n) => Some(n)
  }

  function Negate(o: Option<nat>): Option<int> {
    match o
    case None => None
    case Some(n) => Some(-(n as int))
  }

  function DecimalChar(d: nat): (c: char)
    requires d < 10
    ensures IsDigitOf(c, 10) && HexDigitValue(c) == d
  {
    ('0' as int + d) as char
  }

  /** The plain decimal text of a natural number: digits, no leading zero, no
      exponent. This is what `BigInt.prototype.toString` prints; a JavaScript
      `Number` or a bignumber.js value prints it only below 1e21 and switches
      to exponent form from there. */
  function NatToDecimal(n: nat): (s: string)
    ensures s != [] && AllDigitsOf(s, 10)
    ensures |s| > 1 ==> s[0] != '0'
    decreases n
  {
    if n < 10 then [DecimalChar(n)] else NatToDecimal(n / 10) + [DecimalChar(n % 10)]
  }

  /** Reading back the digits of the plain decimal text gives the number again. */
  lemma {:induction false} DecimalRoundTrip(n: nat)
    ensures DigitsValue(NatToDecimal(n), 10) == n
    decreases n
  {
    var s := NatToDecimal(n);
    if n >= 10 {
      DecimalRoundTrip(n / 10);
      assert s[..|s| - 1] == NatToDecimal(n / 10);
    }
  }

  /** `BigInt` of the plain decimal text of `n` is `n`: the parse used for
      transaction values accepts every natural number written in plain
      decimal. Exponent text, which `Number.prototype.toString` prints from
      1e21 up, is rejected instead (see `TransferForm.ExponentFormUnparsed`). */
  lemma ParseBigIntOfDecimal(n: nat)
    ensures ParseBigInt(NatToDecimal(n)) == Some(n)
  {
    var s := NatToDecimal(n);
    assert !IsWhitespace(s[0]) && !IsWhitespace(s[|s| - 1]);
    assert TrimStart(s) == s;
    assert TrimEnd(s) == s;
    DecimalRoundTrip(n);
  }
}

=== FILE: networks.dfy ===
/** `src/config/networks.ts`: the fixed table of MultiversX networks and the
    default one. */
module Networks {

  datatype Network = Network(
    id: string,
    name: string,
    apiUrl: string,
    explorerUrl: string,
    chainId: string,
    egldLabel: string)

  const Mainnet: Network := Network("mainnet", "Mainnet", "https://api.multiversx.com",
    "https://explorer.multiversx.com", "1", "EGLD")
  const Testnet: Network := Network("testnet", "Testnet", "https://testnet-api.multiversx.com",
    "https://testnet-explorer.multiversx.com", "T", "xEGLD")
  const Devnet: Network := Network("devnet", "Devnet", "https://devnet-api.multiversx.com",
    "https://devnet-explorer.multiversx.com", "D", "xEGLD")

  /** `networks`, in declaration order. */
  const Table: seq<Network> := [Mainnet, Testnet, Devnet]

  /** `defaultNetwork`, the second entry of the table. */
  const Default: Network := Table[1]

  /** Three networks with pairwise distinct ids and chain ids; the default is
      testnet on chain "T"; only mainnet is labelled "EGLD". */
  lemma TableFacts()
    ensures |Table| == 3
    ensures forall i, j :: 0 <= i < j < |Table| ==> Table[i].id != Table[j].id && Table[i].chainId != Table[j].chainId
    ensures [Table[0].chainId, Table[1].chainId, Table[2].chainId] == ["1", "T", "D"]
    ensures Default.id == "testnet" && Default.chainId == "T"
    ensures [Table[0].egldLabel, Table[1].egldLabel, Table[2].egldLabel] == ["EGLD", "xEGLD", "xEGLD"]
  {
  }
}

=== FILE: results.dfy ===
/** Failure-carrying values shared by every module of the model: an optional
    value, and a result that is either a value or an error. */
module Results {
  datatype Option<+T> = None | Some(value: T)

  datatype Result<+T, +E> = Ok(value: T) | Err(error: E)
}

=== FILE: sdk.dfy ===
/** The external collaborators the wallet calls into, as records of functions:
    the MultiversX SDK's key, address and signing operations, and the network
    provider's remote calls. Nothing about them is assumed beyond their types;
    lemmas that need a property of a collaborator state it as a requirement. */
module Sdk {
  import opened Results
  import opened JsText

  /** The SDK's `Transaction` as the wallet fills it in. `gasPrice` is `None`
      where the caller leaves it to the SDK's default. */
  datatype Transaction = Transaction(
    nonce: nat,
    value: int,
    sender: string,
    receiver: string,
    gasPrice: Option<nat>,
    gasLimit: nat,
    data: seq<Byte>,
    chainId: string,
    version: nat,
    signature: seq<Byte>)

  datatype SdkError = InvalidMnemonic

  /** Key and address operations of the SDK.
      - `mnemonicToKey`: `Mnemonic.fromString(words).deriveKey()`, which throws on a bad phrase;
      - `isSecretKey`: whether `new UserSecretKey(bytes)` accepts the bytes;
      - `addressOfKey`: the bech32 address of the public key of an accepted secret key;
      - `isAddress`: whether `new Address(text)` accepts the text;
      - `serializeForSigning` and `sign`: the canonical bytes and `UserSigner.sign` over them. */
  datatype Crypto = Crypto(
    mnemonicToKey: string -> Result<seq<Byte>, SdkError>,
    isSecretKey: seq<Byte> -> bool,
    addressOfKey: seq<Byte> -> string,
    isAddress: string -> bool,
    serializeForSigning: Transaction -> seq<Byte>,
    sign: (seq<Byte>, seq<Byte>) -> seq<Byte>)

  /** `tx.applySignature(signer.sign(tx.serializeForSigning()))`. */
  function SignWith(crypto: Crypto, key: seq<Byte>, tx: Transaction): (signed: Transaction)
    ensures signed.(signature := tx.signature) == tx
  {
    tx.(signature := crypto.sign(key, crypto.serializeForSigning(tx)))
  }

  /** What `getAccount` reports for an address. */
  datatype Account = Account(balance: nat, nonce: nat)

  /** The timestamp of a transaction as it arrives from the network: a number,
      NaN, or no field at all. */
  datatype RawTimestamp = Absent | NotANumber | Millis(ms: int)

  /** A transaction as the network returns it. `value` is the text its
      `toString()` gives, or `None` when the field is null or missing, so that
      calling `toString()` on it throws. */
  datatype RawTransaction = RawTransaction(
    hash: string,
    value: Option<string>,
    sender: string,
    receiver: string,
    timestamp: RawTimestamp)

  /** The body of a transaction-history response: an array, or anything else. */
  datatype HistoryResponse = NotAnArray | Entries(entries: seq<RawTransaction>)

  datatype GatewayError = RequestFailed

  /** `ApiNetworkProvider`: every remote call, any of which may fail. */
  datatype Gateway = Gateway(
    getAccount: string -> Result<Account, GatewayError>,
    sendTransaction: Transaction -> Result<string, GatewayError>,
    getTransaction: string -> Result<HistoryResponse, GatewayError>)
}

=== FILE: transferform.dfy ===
/** `src/components/TransferForm.tsx`: load the stored wallets newest first,
    pick the newest as sender, switch sender, and validate and send a
    transfer. The form holds its own instance of the wallet hook. */
module TransferForm {
  import opened Results
  import opened Wallets
  import WalletHook
  import Sdk
  import JsText
  import Utils

  /** `wallets[i]` was created no earlier than `wallets[j]` whenever `i < j`. */
  predicate NewestFirst(ws: seq<Wallet>) {
    forall i, j :: 0 <= i < j < |ws| ==> ws[i].createdAt >= ws[j].createdAt
  }

  /** Insert `w` before the first wallet no newer than it. */
  function Insert(w: Wallet, sorted: seq<Wallet>): (r: seq<Wallet>)
    requires NewestFirst(sorted)
    ensures NewestFirst(r)
    ensures multiset(r) == multiset(sorted) + multiset{w}
    ensures |r| == |sorted| + 1
    ensures r[0] == w || (sorted != [] && r[0] == sorted[0])
    decreases |sorted|
  {
    if sorted == [] || w.createdAt >= sorted[0].createdAt then [w] + sorted
    else
      var rest := Insert(w, sorted[1..]);
      assert sorted == [sorted[0]] + sorted[1..];
      assert forall j :: 0 <= j < |rest| ==> sorted[0].createdAt >= rest[j].createdAt by {
        assert sorted[0].createdAt >= rest[0].createdAt;
      }
      var r := [sorted[0]] + rest;
      assert forall j :: 1 <= j < |r| ==> r[j] == rest[j - 1];
      r
  }

  /** `parsed.sort((a, b) => b.createdAt - a.createdAt)`: a permutation of the
      list, ordered by `createdAt` non-increasing. */
  function SortNewestFirst(ws: seq<Wallet>): (r: seq<Wallet>)
    ensures NewestFirst(r)
    ensures multiset(r) == multiset(ws)
    ensures |r| == |ws|
    decreases |ws|
  {
    if ws == [] then []
    else
      assert ws == [ws[0]] + ws[1..];
      Insert(ws[0], SortNewestFirst(ws[1..]))
  }

  /** The first element of a list ordered newest first is at least as new as
      every element of any list with the same elements. */
  lemma HeadIsNewest(sorted: seq<Wallet>, ws: seq<Wallet>)
    requires NewestFirst(sorted) && multiset(sorted) == multiset(ws) && |ws| > 0
    ensures sorted[0] in ws
    ensures forall w :: w in ws ==> sorted[0].createdAt >= w.createdAt
  {
    assert sorted[0] in multiset(ws);
    forall w | w in ws
      ensures sorted[0].createdAt >= w.createdAt
    {
      assert w in multiset(sorted);
      var j :| 0 <= j < |sorted| && sorted[j] == w;
      if j > 0 {
        assert sorted[0].createdAt >= sorted[j].createdAt;
      }
    }
  }

  datatype Form = Form(
    wallets: seq<Wallet>,
    selected: string,
    initialized: bool,
    to: string,
    amount: string,
    sending: bool,
    hook: WalletHook.HookState)

  const Initial: Form := Form([], "", false, "", "", false, WalletHook.Initial)

  /** `JSON.parse` threw inside the effect; the effect stops there. */
  datatype FormError = UnreadableStorage

  /** The loading effect. Once `initialized` is set it does nothing. Otherwise a
      stored list is sorted newest first, its first wallet is selected and its
      key handed to `importPrivateKey` (not awaited: its state changes land,
      its failure is not observed), and `initialized` is set. */
  function Load(f: Form, stored: StoredWallets, crypto: Sdk.Crypto): (r: Result<Form, FormError>)
    ensures f.initialized ==> r == Ok(f)
    ensures !f.initialized ==> (r.Err? <==> stored.Unparseable?)
    ensures !f.initialized && stored.NoEntry? ==> r == Ok(f.(initialized := true))
    ensures r.Ok? ==> r.value.initialized && r.value.to == f.to && r.value.amount == f.amount
    ensures !f.initialized && stored.Stored? ==>
      && r.Ok? && NewestFirst(r.value.wallets) && multiset(r.value.wallets) == multiset(stored.wallets)
      && (stored.wallets == [] ==> r.value.selected == f.selected && r.value.hook == f.hook)
      && (stored.wallets != [] ==>
            && r.value.selected == r.value.wallets[0].address
            && r.value.hook == WalletHook.ImportPrivateKey(f.hook, r.value.wallets[0].privateKey, crypto).state
            && forall w :: w in stored.wallets ==> r.value.wallets[0].createdAt >= w.createdAt)
  {
    if f.initialized then Ok(f)
    else match stored
      case NoEntry => Ok(f.(initialized := true))
      case Unparseable => Err(UnreadableStorage)
      case Stored(parsed) =>
        var sorted := SortNewestFirst(parsed);
        if |sorted| > 0 then
          HeadIsNewest(sorted, parsed);
          var hook := WalletHook.ImportPrivateKey(f.hook, sorted[0].privateKey, crypto).state;
          Ok(f.(wallets := sorted, selected := sorted[0].address, hook := hook, initialized := true))
        else
          Ok(f.(wallets := sorted, initialized := true))
  }

  /** The stored list is read at most once: a second run of the effect, whatever
      storage holds by then, changes nothing. */
  lemma LoadsOnce(f: Form, first: StoredWallets, second: StoredWallets, crypto: Sdk.Crypto)
    requires Load(f, first, crypto).Ok?
    ensures Load(Load(f, first, crypto).value, second, crypto) == Load(f, first, crypto)
  {
  }

  /** `wallets.find(w => w.address === addr)`: the first wallet with that address. */
  function FindByAddress(ws: seq<Wallet>, addr: string): (r: Option<Wallet>)
    ensures r.None? <==> forall w :: w in ws ==> w.address != addr
    ensures r.Some? ==> exists i :: 0 <= i < |ws| && ws[i] == r.value && r.value.address == addr
                                    && forall j :: 0 <= j < i ==> ws[j].address != addr
    decreases |ws|
  {
    if ws == [] then None
    else if ws[0].address == addr then Some(ws[0])
    else
      var r := FindByAddress(ws[1..], addr);
      assert forall w :: w in ws ==> w == ws[0] || w in ws[1..];
      if r.Some? then
        var i :| 0 <= i < |ws[1..]| && ws[1..][i] == r.value && r.value.address == addr
                 && forall j :: 0 <= j < i ==> ws[1..][j].address != addr;
        assert ws[i + 1] == r.value;
        r
      else r
  }

  /** `handleChangeWallet(addr)`: an unlisted address changes nothing; a listed
      one has its key imported, and becomes the selection only if the import
      did not throw. */
  function ChangeWallet(f: Form, addr: string, crypto: Sdk.Crypto): (r: Form)
    ensures (forall w :: w in f.wallets ==> w.address != addr) ==> r == f
    ensures r.wallets == f.wallets && r.to == f.to && r.amount == f.amount
    ensures r.selected == f.selected || r.selected == addr
    ensures FindByAddress(f.wallets, addr).Some? ==>
      var w := FindByAddress(f.wallets, addr).value;
      && r.hook == WalletHook.ImportPrivateKey(f.hook, w.privateKey, crypto).state
      && (WalletHook.ImportPrivateKey(f.hook, w.privateKey, crypto).result.Ok? ==> r.selected == addr)
      && (WalletHook.ImportPrivateKey(f.hook, w.privateKey, crypto).result.Err? ==> r.selected == f.selected)
  {
    match FindByAddress(f.wallets, addr)
    case None => f
    case Some(w) =>
      var imported := WalletHook.ImportPrivateKey(f.hook, w.privateKey, crypto);
      if imported.result.Ok? then f.(hook := imported.state, selected := addr)
      else f.(hook := imported.state)
  }

  /** `Number(text)`: a JavaScript number, which may be NaN or infinite. */
  datatype JsNumber = NaN | Finite(value: real) | PositiveInfinity | NegativeInfinity

  /** Passes `isNaN(Number(amount)) || Number(amount) <= 0` unrejected. */
  predicate IsPositive(n: JsNumber) {
    (n.Finite? && n.value > 0.0) || n.PositiveInfinity?
  }

  datatype SendOutcome = MissingFields | InvalidAmount | Sent | Failed(error: WalletHook.HookError)

  /** `handleSend()`. `toNumber` is `Number(...)` and `toBaseUnits` is the
      floating-point conversion `(Number(amount) * 1e18).toString()`. */
  function HandleSend(f: Form, toNumber: string -> JsNumber, toBaseUnits: string -> string,
                      crypto: Sdk.Crypto, gateway: Sdk.Gateway): (r: (Form, SendOutcome))
    ensures f.to == "" || f.amount == "" ==> r == (f, MissingFields)
    ensures f.to != "" && f.amount != "" && !IsPositive(toNumber(f.amount)) ==> r == (f, InvalidAmount)
    ensures r.1 == Sent ==> r.0 == f.(to := "", amount := "", sending := false)
    ensures r.1.Failed? ==> r.0 == f.(sending := false)
    ensures r.1 == Sent <==>
      && f.to != "" && f.amount != "" && IsPositive(toNumber(f.amount))
      && WalletHook.SendTransaction(f.hook, f.to, toBaseUnits(f.amount), crypto, gateway).Ok?
  {
    if f.to == "" || f.amount == "" then (f, MissingFields)
    else if !IsPositive(toNumber(f.amount)) then (f, InvalidAmount)
    else match WalletHook.SendTransaction(f.hook, f.to, toBaseUnits(f.amount), crypto, gateway)
      case Ok(_) => (f.(to := "", amount := "", sending := false), Sent)
      case Err(e) => (f.(sending := false), Failed(e))
  }

  /** A transfer rejected by validation sends nothing: its outcome is the same
      whatever the SDK and the network would have done. */
  lemma RejectedSendIsOffline(f: Form, toNumber: string -> JsNumber, toBaseUnits: string -> string,
                              c1: Sdk.Crypto, g1: Sdk.Gateway, c2: Sdk.Crypto, g2: Sdk.Gateway)
    requires f.to == "" || f.amount == "" || !IsPositive(toNumber(f.amount))
    ensures HandleSend(f, toNumber, toBaseUnits, c1, g1) == HandleSend(f, toNumber, toBaseUnits, c2, g2)
    ensures HandleSend(f, toNumber, toBaseUnits, c1, g1).1 in {MissingFields, InvalidAmount}
  {
  }

  /** Text JavaScript prints for a number of at least 1e21, such as "1e+21"
      or "1.5e+21": no whitespace, a leading digit 1..9, and a character that
      is not a decimal digit. */
  predicate ExponentForm(t: string) {
    && t != [] && '1' <= t[0] <= '9'
    && (forall i :: 0 <= i < |t| ==> !JsText.IsWhitespace(t[i]))
    && exists i :: 0 <= i < |t| && !JsText.IsDigitOf(t[i], 10)
  }

  /** `BigInt` rejects every such text. */
  lemma ExponentFormUnparsed(t: string)
    requires ExponentForm(t)
    ensures JsText.ParseBigInt(t).None?
  {
    assert JsText.TrimStart(t) == t;
    assert JsText.Trim(t) == t;
  }

  /** Every character is printable ASCII other than space, so none is whitespace. */
  predicate Printable(t: string) {
    forall i :: 0 <= i < |t| ==> '!' <= t[i] <= '~'
  }

  /** What `(Number(amount) * 1e18).toString()` gives for 1000 and for 1500
      EGLD: exponent form, which `BigInt` rejects. */
  lemma ThousandEgldUnparsed(t: string)
    requires t == "1e+21" || t == "1.5e+21"
    ensures ExponentForm(t) && JsText.ParseBigInt(t).None?
  {
    if t == "1e+21" {
      PrintableExponent("1e+21");
    } else {
      PrintableExponent("1.5e+21");
    }
  }

  /** Printable text with a digit 1..9 then a non-digit is in exponent form. */
  lemma PrintableExponent(t: string)
    requires Printable(t) && |t| >= 2 && '1' <= t[0] <= '9' && !JsText.IsDigitOf(t[1], 10)
    ensures ExponentForm(t) && JsText.ParseBigInt(t).None?
  {
    ExponentFormUnparsed(t);
  }

  /** JavaScript prints a number of at least 1e21 in exponent form, so for an
      amount of 1000 EGLD or more `(Number(amount) * 1e18).toString()` is text
      that `BigInt` rejects: a transfer that passes validation and reaches the
      hook with a loaded, usable key then fails on the amount. */
  lemma ExponentAmountRejected(f: Form, toNumber: string -> JsNumber, toBaseUnits: string -> string,
                               crypto: Sdk.Crypto, gateway: Sdk.Gateway)
    requires f.to != "" && f.amount != "" && IsPositive(toNumber(f.amount))
    requires ExponentForm(toBaseUnits(f.amount))
    requires f.hook.privateKey != "" && f.hook.address != ""
    requires Utils.Decode(f.hook.privateKey).Ok? && crypto.isSecretKey(Utils.Decode(f.hook.privateKey).value)
    requires crypto.isAddress(f.hook.address) && crypto.isAddress(f.to) && gateway.getAccount(f.hook.address).Ok?
    ensures HandleSend(f, toNumber, toBaseUnits, crypto, gateway) == (f.(sending := false), Failed(WalletHook.AmountRejected))
  {
    ExponentFormUnparsed(toBaseUnits(f.amount));
  }
}

=== FILE: utils.dfy ===
/** `src/utils/index.ts`: the hex decoder `hexToUint8Array` and
    `deriveAddressFromPrivateKey`. The hook `src/hooks/useWallet.ts` carries a
    second copy of the same decoder, differing only in its error text; both
    are modelled by the one definition here. */
module Utils {
  import opened Results
  import opened JsText
  import Sdk

  /** The `Error` thrown for an odd-length string. */
  datatype HexError = OddLength

  /** `parseInt(pair, 16)` stored into a `Uint8Array`: NaN becomes 0 and a
      negative value wraps modulo 256. */
  function PairByte(hi: char, lo: char): (b: Byte)
    ensures IsHexDigit(hi) && IsHexDigit(lo) ==> b == 16 * HexDigitValue(hi) + HexDigitValue(lo)
    ensures !IsHexDigit(hi) && !IsHexDigit(lo) ==> b == 0
  {
    match ParseHexPair(hi, lo)
    case None => 0
    case Some(n) => ToUint8(n)
  }

  /** The decoder as a function: odd length is an error, otherwise byte `k` is
      the value of the characters at `2k` and `2k+1`. */
  function Decode(s: string): (r: Result<seq<Byte>, HexError>)
    ensures r.Err? <==> |s| % 2 == 1
    ensures r.Ok? ==> 2 * |r.value| == |s|
    ensures r.Ok? ==> forall k :: 0 <= k < |r.value| ==> r.value[k] == PairByte(s[2 * k], s[2 * k + 1])
    ensures s == [] ==> r == Ok([])
  {
    if |s| % 2 == 1 then Err(OddLength)
    else Ok(seq(|s| / 2, k requires 0 <= k < |s| / 2 => PairByte(s[2 * k], s[2 * k + 1])))
  }

  /** `hexToUint8Array` as written: a zero-filled array of half the length,
      filled one pair at a time by a loop stepping two characters. */
  method HexToBytes(hex: string) returns (r: Result<seq<Byte>, HexError>)
    ensures r.Err? <==> |hex| % 2 != 0
    ensures r.Ok? ==> 2 * |r.value| == |hex|
    ensures r.Ok? ==> forall k :: 0 <= k < |r.value| ==> r.value[k] == PairByte(hex[2 * k], hex[2 * k + 1])
    ensures r == Decode(hex)
  {
    if |hex| % 2 != 0 {
      return Err(OddLength);
    }
    var bytes := new Byte[|hex| / 2](_ => 0);
    var i := 0;
    while i < |hex|
      invariant 0 <= i <= |hex| && i % 2 == 0
      invariant forall k :: 0 <= k < i / 2 ==> bytes[k] == PairByte(hex[2 * k], hex[2 * k + 1])
    {
      bytes[i / 2] := PairByte(hex[i], hex[i + 1]);
      i := i + 2;
    }
    r := Ok(bytes[..]);
    assert r.value == Decode(hex).value;
  }

  function LowerHexChar(v: nat): (c: char)
    requires v < 16
    ensures IsHexDigit(c) && HexDigitValue(c) == v
    ensures !('A' <= c <= 'F')
  {
    if v < 10 then ('0' as int + v) as char else ('a' as int + v - 10) as char
  }

  /** Lower-case hex text of a byte string, two digits per byte: what the SDK's
      `secretKey.hex()` returns for the key bytes. */
  function Encode(bs: seq<Byte>): (s: string)
    ensures |s| == 2 * |bs|
    ensures forall k :: 0 <= k < |bs| ==> s[2 * k] == LowerHexChar(bs[k] / 16) && s[2 * k + 1] == LowerHexChar(bs[k] % 16)
  {
    seq(2 * |bs|, i requires 0 <= i < 2 * |bs| =>
      if i % 2 == 0 then LowerHexChar(bs[i / 2] / 16) else LowerHexChar(bs[i / 2] % 16))
  }

  lemma PairByteOfLowerHex(hi: char, lo: char, b: Byte)
    requires hi == LowerHexChar(b / 16) && lo == LowerHexChar(b % 16)
    ensures PairByte(hi, lo) == b
  {
    assert PairByte(hi, lo) == 16 * (b / 16) + b % 16;
  }

  /** Decoding the hex text of a key gives back the key bytes. */
  lemma DecodeEncode(bs: seq<Byte>)
    ensures Decode(Encode(bs)) == Ok(bs)
  {
    var s := Encode(bs);
    var r := Decode(s);
    forall k | 0 <= k < |bs|
      ensures r.value[k] == bs[k]
    {
      assert r.value[k] == PairByte(s[2 * k], s[2 * k + 1]);
      PairByteOfLowerHex(s[2 * k], s[2 * k + 1], bs[k]);
    }
    assert r.value == bs;
  }

  function ToLowerHex(c: char): (d: char)
    requires IsHexDigit(c)
    ensures IsHexDigit(d) && HexDigitValue(d) == HexDigitValue(c) && !('A' <= d <= 'F')
  {
    LowerHexChar(HexDigitValue(c))
  }

  lemma LowerHexOfPairByte(hi: char, lo: char, b: Byte)
    requires IsHexDigit(hi) && IsHexDigit(lo) && b == PairByte(hi, lo)
    ensures LowerHexChar(b / 16) == ToLowerHex(hi) && LowerHexChar(b % 16) == ToLowerHex(lo)
  {
    assert b == 16 * HexDigitValue(hi) + HexDigitValue(lo);
  }

  predicate AllHex(s: string) {
    forall i :: 0 <= i < |s| ==> IsHexDigit(s[i])
  }

  /** On hex text of even length, decoding then encoding gives the same text
      in lower case: every hex string of even length is the encoding of
      exactly the bytes it decodes to. */
  lemma EncodeDecode(s: string)
    requires |s| % 2 == 0 && AllHex(s)
    ensures Decode(s).Ok?
    ensures Encode(Decode(s).value) == seq(|s|, i requires 0 <= i < |s| => ToLowerHex(s[i]))
  {
    forall i | 0 <= i < |s|
      ensures Encode(Decode(s).value)[i] == ToLowerHex(s[i])
    {
      EncodeDecodeAt(s, i);
    }
  }

  lemma EncodeDecodeAt(s: string, i: int)
    requires |s| % 2 == 0 && AllHex(s) && 0 <= i < |s|
    ensures Encode(Decode(s).value)[i] == ToLowerHex(s[i])
  {
    var bs := Decode(s).value;
    var k := i / 2;
    var hi, lo := s[2 * k], s[2 * k + 1];
    assert bs[k] == PairByte(hi, lo);
    LowerHexOfPairByte(hi, lo, bs[k]);
    var e := Encode(bs);
    assert e[2 * k] == LowerHexChar(bs[k] / 16) && e[2 * k + 1] == LowerHexChar(bs[k] % 16);
    assert i == 2 * k || i == 2 * k + 1;
  }

  /** Why the address derivation failed: the hex decoder threw, or the SDK
      refused the bytes as a secret key. */
  datatype KeyError = HexRejected(hex: HexError) | KeyRejected

  /** `deriveAddressFromPrivateKey`: decode the hex, build the secret key and
      signer, and return the signer's bech32 address. */
  function DeriveAddressFromPrivateKey(pkHex: string, crypto: Sdk.Crypto): (r: Result<string, KeyError>)
    ensures Decode(pkHex).Err? ==> r == Err(HexRejected(OddLength))
    ensures r.Ok? <==> |pkHex| % 2 == 0 && crypto.isSecretKey(Decode(pkHex).value)
    ensures r.Ok? ==> r.value == crypto.addressOfKey(Decode(pkHex).value)
  {
    match Decode(pkHex)
    case Err(e) => Err(HexRejected(e))
    case Ok(bytes) =>
      if !crypto.isSecretKey(bytes) then Err(KeyRejected) else Ok(crypto.addressOfKey(bytes))
  }

  /** A string the decoder rejects fails before any SDK object is built: the
      outcome does not depend on the SDK at all. */
  lemma DeriveFailsBeforeKey(pkHex: string, c1: Sdk.Crypto, c2: Sdk.Crypto)
    requires |pkHex| % 2 == 1
    ensures DeriveAddressFromPrivateKey(pkHex, c1) == DeriveAddressFromPrivateKey(pkHex, c2)
    ensures DeriveAddressFromPrivateKey(pkHex, c1).Err?
  {
  }
}

=== FILE: walletexport.dfy ===
/** `src/components/WalletExport.tsx`: encrypt the whole wallet record under a
    password and offer it as a `.json` file holding `{ encrypted }`. */
module WalletExport {
  import opened Results
  import opened Wallets

  /** The file handed to `saveAs`: its name and the envelope it contains. */
  datatype ExportFile = ExportFile(fileName: string, envelope: Envelope)

  const FileSuffix: string := "-wallet.json"

  /** `handleExport()`: no file without a password; otherwise the CryptoJS
      ciphertext of `JSON.stringify(wallet)` in an envelope, named after the
      wallet. */
  function HandleExport(w: Wallet, password: string, codec: Codec): (r: Option<ExportFile>)
    ensures r.None? <==> password == ""
    ensures r.Some? ==> r.value.fileName == w.name + FileSuffix
    ensures r.Some? ==> r.value.envelope == Envelope(codec.aesEncrypt(codec.stringifyWallet(w), password))
  {
    if password == "" then None
    else Some(ExportFile(w.name + FileSuffix, Envelope(codec.aesEncrypt(codec.stringifyWallet(w), password))))
  }

  /** The file name ends in "-wallet.json" and starts with the wallet's name. */
  lemma FileNameShape(w: Wallet, password: string, codec: Codec)
    requires password != ""
    ensures var name := HandleExport(w, password, codec).value.fileName;
      |name| == |w.name| + 12 && name[..|w.name|] == w.name && name[|w.name|..] == "-wallet.json"
  {
  }
}

=== FILE: wallethook.dfy ===
/** `src/hooks/useWallet.ts`: the hook's three state fields and the actions
    that change them. Each action returns the state it leaves behind together
    with its outcome, so that an action which throws after a setter has run
    shows that setter's effect. */
module WalletHook {
  import opened Results
  import opened JsText
  import Utils
  import Sdk
  import Crypto

  datatype HookState = HookState(mnemonic: string, privateKey: string, address: string)

  /** The three `useState('')`. */
  const Initial: HookState := HookState("", "", "")

  /** What an action can throw: the "wallet not loaded" guard, the SDK refusing
      a phrase, key or address, the hex decoder, the provider, `BigInt(amount)`,
      or `decryptData`. */
  datatype HookError =
    | NotLoaded
    | PhraseRejected(sdk: Sdk.SdkError)
    | KeyUnusable(key: Utils.KeyError)
    | AddressRejected
    | NetworkFailed
    | AmountRejected
    | Undecryptable(decrypt: Crypto.DecryptError)

  datatype Step<T> = Step(state: HookState, result: Result<T, HookError>)

  /** `importMnemonic(words)`: derive the key once, then set the phrase, the
      key's hex and its address together. */
  function ImportMnemonic(st: HookState, words: string, crypto: Sdk.Crypto): (r: Step<()>)
    ensures r.result.Err? <==> crypto.mnemonicToKey(words).Err?
    ensures r.result.Err? ==> r.state == st
    ensures r.result.Ok? ==>
      var key := crypto.mnemonicToKey(words).value;
      && r.state.mnemonic == words
      && Utils.Decode(r.state.privateKey) == Ok(key)
      && r.state.address == crypto.addressOfKey(key)
  {
    match crypto.mnemonicToKey(words)
    case Err(e) => Step(st, Err(PhraseRejected(e)))
    case Ok(key) =>
      Utils.DecodeEncode(key);
      Step(HookState(words, Utils.Encode(key), crypto.addressOfKey(key)), Ok(()))
  }

  /** `generateMnemonic()`, with the phrase `Mnemonic.generate()` drew given as
      `generated`: store the phrase, then import it. */
  function GenerateMnemonic(st: HookState, generated: string, crypto: Sdk.Crypto): (r: Step<string>)
    ensures r.state.mnemonic == generated
    ensures r.result.Ok? <==> crypto.mnemonicToKey(generated).Ok?
    ensures r.result.Ok? ==> r.result.value == generated && r.state == ImportMnemonic(st, generated, crypto).state
    ensures r.result.Err? ==> r.state == st.(mnemonic := generated)
  {
    var imported := ImportMnemonic(st.(mnemonic := generated), generated, crypto);
    match imported.result
    case Err(e) => Step(imported.state, Err(e))
    case Ok(_) => Step(imported.state, Ok(generated))
  }

  /** `importPrivateKey(pkHex)`: the key text is stored first, then the address
      is derived; when derivation throws the address keeps its old value. */
  function ImportPrivateKey(st: HookState, pkHex: string, crypto: Sdk.Crypto): (r: Step<()>)
    ensures r.state.privateKey == pkHex && r.state.mnemonic == st.mnemonic
    ensures r.result.Ok? <==> Utils.DeriveAddressFromPrivateKey(pkHex, crypto).Ok?
    ensures r.result.Err? ==> r.state.address == st.address
    ensures r.result.Ok? ==> r.state.address == Utils.DeriveAddressFromPrivateKey(pkHex, crypto).value
  {
    var keySet := st.(privateKey := pkHex);
    match Utils.DeriveAddressFromPrivateKey(pkHex, crypto)
    case Err(e) => Step(keySet, Err(KeyUnusable(e)))
    case Ok(address) => Step(keySet.(address := address), Ok(()))
  }

  /** Re-importing the key text that `importMnemonic` stored derives the same
      address and changes nothing, provided the SDK accepts the derived key. */
  lemma MnemonicKeyReimports(st: HookState, words: string, crypto: Sdk.Crypto)
    requires crypto.mnemonicToKey(words).Ok? && crypto.isSecretKey(crypto.mnemonicToKey(words).value)
    ensures var after := ImportMnemonic(st, words, crypto).state;
      ImportPrivateKey(after, after.privateKey, crypto) == Step(after, Ok(()))
  {
  }

  /** `getBalance()`: "0" with no address loaded, without asking the provider;
      otherwise the provider's balance as decimal text. */
  function GetBalance(st: HookState, crypto: Sdk.Crypto, gateway: Sdk.Gateway): (r: Result<string, HookError>)
    ensures st.address == "" ==> r == Ok("0")
    ensures st.address != "" ==> (r.Ok? <==> crypto.isAddress(st.address) && gateway.getAccount(st.address).Ok?)
    ensures st.address != "" && r.Ok? ==>
      AllDigitsOf(r.value, 10) && DigitsValue(r.value, 10) == gateway.getAccount(st.address).value.balance
  {
    if st.address == "" then Ok("0")
    else if !crypto.isAddress(st.address) then Err(AddressRejected)
    else match gateway.getAccount(st.address)
      case Err(_) => Err(NetworkFailed)
      case Ok(account) =>
        DecimalRoundTrip(account.balance);
        Ok(NatToDecimal(account.balance))
  }

  const GasLimit: nat := 50000
  const ChainId: string := "D"
  const TxVersion: nat := 1

  /** The unsigned transaction the hook builds: devnet's chain id is fixed in
      the code, and the gas price is left to the SDK. */
  function BuildTransaction(nonce: nat, value: int, sender: string, receiver: string): (tx: Sdk.Transaction)
    ensures tx.nonce == nonce && tx.value == value && tx.sender == sender && tx.receiver == receiver
    ensures tx.gasLimit == GasLimit && tx.chainId == ChainId && tx.version == TxVersion
    ensures tx.data == [] && tx.gasPrice.None? && tx.signature == []
  {
    Sdk.Transaction(nonce, value, sender, receiver, None, GasLimit, [], ChainId, TxVersion, [])
  }

  /** `sendTransaction(to, amount)` up to submission: the guard, the secret key
      from the stored hex, the two addresses, the nonce query, `BigInt(amount)`,
      building and signing. */
  function PrepareSend(st: HookState, to: string, amount: string, crypto: Sdk.Crypto, gateway: Sdk.Gateway)
    : (r: Result<Sdk.Transaction, HookError>)
    ensures st.privateKey == "" || st.address == "" ==> r == Err(NotLoaded)
    ensures r.Ok? <==>
      && st.privateKey != "" && st.address != ""
      && Utils.Decode(st.privateKey).Ok? && crypto.isSecretKey(Utils.Decode(st.privateKey).value)
      && crypto.isAddress(st.address) && crypto.isAddress(to)
      && gateway.getAccount(st.address).Ok? && ParseBigInt(amount).Some?
    ensures r.Ok? ==>
      r.value == Sdk.SignWith(crypto, Utils.Decode(st.privateKey).value,
           BuildTransaction(gateway.getAccount(st.address).value.nonce, ParseBigInt(amount).value, st.address, to))
  {
    if st.privateKey == "" || st.address == "" then Err(NotLoaded)
    else match Utils.Decode(st.privateKey)
      case Err(e) => Err(KeyUnusable(Utils.HexRejected(e)))
      case Ok(key) =>
        if !crypto.isSecretKey(key) then Err(KeyUnusable(Utils.KeyRejected))
        else if !crypto.isAddress(st.address) || !crypto.isAddress(to) then Err(AddressRejected)
        else match gateway.getAccount(st.address)
          case Err(_) => Err(NetworkFailed)
          case Ok(account) =>
            match ParseBigInt(amount)
            case None => Err(AmountRejected)
            case Some(value) => Ok(Sdk.SignWith(crypto, key, BuildTransaction(account.nonce, value, st.address, to)))
  }

  /** `sendTransaction(to, amount)`: submit the prepared transaction; the hash
      is only logged. The hook's state is never changed. */
  function SendTransaction(st: HookState, to: string, amount: string, crypto: Sdk.Crypto, gateway: Sdk.Gateway)
    : (r: Result<(), HookError>)
    ensures st.privateKey == "" || st.address == "" ==> r == Err(NotLoaded)
    ensures r.Ok? <==> PrepareSend(st, to, amount, crypto, gateway).Ok?
                       && gateway.sendTransaction(PrepareSend(st, to, amount, crypto, gateway).value).Ok?
  {
    match PrepareSend(st, to, amount, crypto, gateway)
    case Err(e) => Err(e)
    case Ok(tx) =>
      match gateway.sendTransaction(tx)
      case Err(_) => Err(NetworkFailed)
      case Ok(_) => Ok(())
  }

  /** Browser storage: string keys to string values. */
  type Storage = map<string, string>

  const EncryptedKeyEntry: string := "encryptedPK"

  /** `storeWalletEncrypted(password)`, with the random salt and iv given. */
  function StoreWalletEncrypted(st: HookState, password: string, storage: Storage, suite: Crypto.Suite,
                                salt: seq<Byte>, iv: seq<Byte>): (r: Storage)
    requires |salt| == Crypto.SaltLength && |iv| == Crypto.IvLength
    ensures r.Keys == storage.Keys + {EncryptedKeyEntry}
    ensures forall k :: k in storage && k != EncryptedKeyEntry ==> r[k] == storage[k]
    ensures r[EncryptedKeyEntry] == Crypto.EncryptData(suite, st.privateKey, password, salt, iv)
  {
    storage[EncryptedKeyEntry := Crypto.EncryptData(suite, st.privateKey, password, salt, iv)]
  }

  /** `loadWalletEncrypted(password)`: nothing happens when no blob is stored
      (a missing or empty entry); otherwise decrypt and import the key. */
  function LoadWalletEncrypted(st: HookState, password: string, storage: Storage, suite: Crypto.Suite,
                               crypto: Sdk.Crypto): (r: Step<()>)
    ensures EncryptedKeyEntry !in storage || storage[EncryptedKeyEntry] == "" ==> r == Step(st, Ok(()))
    ensures EncryptedKeyEntry in storage && storage[EncryptedKeyEntry] != "" ==>
      match Crypto.DecryptData(suite, storage[EncryptedKeyEntry], password)
      case Err(e) => r == Step(st, Err(Undecryptable(e)))
      case Ok(pkHex) => r == ImportPrivateKey(st, pkHex, crypto)
  {
    if EncryptedKeyEntry !in storage || storage[EncryptedKeyEntry] == "" then Step(st, Ok(()))
    else match Crypto.DecryptData(suite, storage[EncryptedKeyEntry], password)
      case Err(e) => Step(st, Err(Undecryptable(e)))
      case Ok(pkHex) => ImportPrivateKey(st, pkHex, crypto)
  }

  /** Loading what was stored, with the same password, imports the key that
      was stored, into whatever state the hook is in by then. */
  lemma StoreThenLoad(st: HookState, later: HookState, password: string, storage: Storage, suite: Crypto.Suite,
                      salt: seq<Byte>, iv: seq<Byte>, crypto: Sdk.Crypto)
    requires |salt| == Crypto.SaltLength && |iv| == Crypto.IvLength
    requires Crypto.CipherInverts(suite)
    requires suite.utf8Decode(suite.utf8Encode(st.privateKey)) == st.privateKey
    ensures LoadWalletEncrypted(later, password, StoreWalletEncrypted(st, password, storage, suite, salt, iv), suite, crypto)
            == ImportPrivateKey(later, st.privateKey, crypto)
  {
    var blob64 := Crypto.EncryptData(suite, st.privateKey, password, salt, iv);
    Crypto.DecryptEncrypt(suite, st.privateKey, password, salt, iv);
    assert blob64 != "";
  }
}

=== FILE: walletimport.dfy ===
/** `src/components/WalletImport.tsx`: read an exported file, decrypt it with
    the typed password, and append the wallet to the stored list under a new
    id and creation time. `uuidv4()` and `Date.now()` are the parameters
    `newId` and `now`. */
module WalletImport {
  import opened Results
  import opened Wallets
  import WalletExport

  /** Everything inside the `try`: parsing the file, decrypting, parsing the
      wallet, or reading the stored list can throw. */
  datatype ImportError = BadFile | BadPassword | BadWallet | UnreadableStorage

  /** The file text to the wallet it holds: `JSON.parse` of the file, CryptoJS
      decryption of its `encrypted` field, `JSON.parse` of the plaintext. */
  function ReadWallet(content: string, password: string, codec: Codec): (r: Result<Wallet, ImportError>)
    ensures r.Ok? <==>
      && codec.parseEnvelope(content).Ok?
      && codec.aesDecrypt(codec.parseEnvelope(content).value.encrypted, password).Ok?
      && codec.parseWallet(codec.aesDecrypt(codec.parseEnvelope(content).value.encrypted, password).value).Ok?
  {
    match codec.parseEnvelope(content)
    case Err(_) => Err(BadFile)
    case Ok(envelope) =>
      match codec.aesDecrypt(envelope.encrypted, password)
      case Err(_) => Err(BadPassword)
      case Ok(plain) =>
        match codec.parseWallet(plain)
        case Err(_) => Err(BadWallet)
        case Ok(w) => Ok(w)
  }

  /** `stored ? JSON.parse(stored) : []`. */
  function ExistingList(stored: StoredWallets): (r: Result<seq<Wallet>, ImportError>)
    ensures stored.NoEntry? ==> r == Ok([])
    ensures stored.Stored? ==> r == Ok(stored.wallets)
    ensures r.Err? <==> stored.Unparseable?
  {
    match stored
    case NoEntry => Ok([])
    case Unparseable => Err(UnreadableStorage)
    case Stored(ws) => Ok(ws)
  }

  /** `{ ...wallet, id: uuidv4(), createdAt: Date.now() }`. */
  function Restamp(w: Wallet, newId: string, now: int): (r: Wallet)
    ensures r.id == newId && r.createdAt == now
    ensures r.name == w.name && r.address == w.address && r.privateKey == w.privateKey
    ensures r.mnemonic == w.mnemonic && r.balance == w.balance
  {
    w.(id := newId, createdAt := now)
  }

  /** What `handleFileChange` does to storage: nothing without a file; the new
      list written back; or, on any throw, nothing written. */
  datatype Outcome = NoFile | Written(wallets: seq<Wallet>) | Failed(error: ImportError)

  function HandleFileChange(file: Option<string>, password: string, stored: StoredWallets,
                            codec: Codec, newId: string, now: int): (r: Outcome)
    ensures file.None? <==> r == NoFile
    ensures r.Failed? <==> file.Some? && (ReadWallet(file.value, password, codec).Err? || stored.Unparseable?)
    ensures r.Written? ==>
      var before := ExistingList(stored).value;
      && |r.wallets| == |before| + 1
      && r.wallets[..|before|] == before
      && r.wallets[|before|] == Restamp(ReadWallet(file.value, password, codec).value, newId, now)
  {
    match file
    case None => NoFile
    case Some(content) =>
      match ReadWallet(content, password, codec)
      case Err(e) => Failed(e)
      case Ok(w) =>
        match ExistingList(stored)
        case Err(e) => Failed(e)
        case Ok(ws) => Written(ws + [Restamp(w, newId, now)])
  }

  /** The `"wallets"` entry after the handler has run. */
  function Apply(stored: StoredWallets, r: Outcome): (s: StoredWallets)
    ensures !r.Written? ==> s == stored
    ensures r.Written? ==> s == Stored(r.wallets)
  {
    if r.Written? then Stored(r.wallets) else stored
  }

  /** Importing the same file twice leaves two entries for the same address:
      there is no deduplication. */
  lemma ImportTwiceKeepsBoth(content: string, password: string, stored: StoredWallets, codec: Codec,
                             id1: string, now1: int, id2: string, now2: int)
    requires ReadWallet(content, password, codec).Ok? && !stored.Unparseable?
    ensures var once := Apply(stored, HandleFileChange(Some(content), password, stored, codec, id1, now1));
      var twice := HandleFileChange(Some(content), password, once, codec, id2, now2);
      var n := |ExistingList(stored).value|;
      && twice.Written? && |twice.wallets| == n + 2
      && twice.wallets[n].address == twice.wallets[n + 1].address
      && twice.wallets[n].id == id1 && twice.wallets[n + 1].id == id2
  {
  }

  /** Importing an exported file with the export password appends the exported
      wallet under its new id and time, provided the JSON and CryptoJS calls
      invert each other on these values. */
  lemma ExportThenImport(w: Wallet, password: string, stored: StoredWallets, codec: Codec, newId: string, now: int)
    requires password != "" && !stored.Unparseable?
    requires var env := Envelope(codec.aesEncrypt(codec.stringifyWallet(w), password));
      && codec.parseEnvelope(codec.renderEnvelope(env)) == Ok(env)
      && codec.aesDecrypt(env.encrypted, password) == Ok(codec.stringifyWallet(w))
      && codec.parseWallet(codec.stringifyWallet(w)) == Ok(w)
    ensures var file := WalletExport.HandleExport(w, password, codec).value;
      HandleFileChange(Some(codec.renderEnvelope(file.envelope)), password, stored, codec, newId, now)
        == Written(ExistingList(stored).value + [w.(id := newId, createdAt := now)])
  {
  }
}

=== FILE: wallets.dfy ===
/** The wallet record the components keep under the `"wallets"` storage key,
    the view of that entry after `JSON.parse`, and the JSON and CryptoJS calls
    the export and import files go through. */
module Wallets {
  import opened Results

  /** The `Wallet` interface of `Dashboard.tsx`; `balance` is absent until the
      first refresh. */
  datatype Wallet = Wallet(
    id: string,
    name: string,
    address: string,
    privateKey: string,
    mnemonic: string,
    createdAt: int,
    balance: Option<string>)

  /** `localStorage.getItem("wallets")` as the components read it: no entry or
      the empty string (both falsy), text `JSON.parse` throws on or that is not
      an array, or a parsed array. */
  datatype StoredWallets = NoEntry | Unparseable | Stored(wallets: seq<Wallet>)

  /** The `{ encrypted }` object written to an export file. */
  datatype Envelope = Envelope(encrypted: string)

  datatype CodecError = Malformed

  /** `JSON.stringify`/`JSON.parse` of a wallet and of an envelope, and
      CryptoJS AES in passphrase mode. One `aesEncrypt` stands for one call,
      random salt included. */
  datatype Codec = Codec(
    stringifyWallet: Wallet -> string,
    parseWallet: string -> Result<Wallet, CodecError>,
    renderEnvelope: Envelope -> string,
    parseEnvelope: string -> Result<Envelope, CodecError>,
    aesEncrypt: (string, string) -> string,
    aesDecrypt: (string, string) -> Result<string, CodecError>)
}

=== FILE: walletservice.dfy ===
/** `src/services/walletService.ts`: the `WalletService` object, as an
    immutable state (current network, provider URL, optional signer) and pure
    operations on it. The random phrase of `createWallet`, the clock of
    `getTransactions`, the SDK and the provider are parameters. */
module WalletService {
  import opened Results
  import opened JsText
  import Networks
  import Sdk

  /** The private fields: the signer is represented by its secret key, the
      provider by the API URL it was built for. */
  datatype Service = Service(network: Networks.Network, providerUrl: string, signer: Option<seq<Byte>>)

  /** Every method catches whatever was thrown and rethrows one fixed message. */
  datatype ServiceError = CreateFailed | ImportFailed | BalanceFailed | SendFailed | HistoryFailed

  /** The constructor: the default network, its provider, no signer. */
  function New(): (s: Service)
    ensures s.network == Networks.Default && s.providerUrl == Networks.Default.apiUrl
    ensures s.signer.None?
  {
    Service(Networks.Default, Networks.Default.apiUrl, None)
  }

  function ClearWallet(s: Service): (t: Service)
    ensures t.signer.None? && t.network == s.network && t.providerUrl == s.providerUrl
  {
    s.(signer := None)
  }

  function GetCurrentNetwork(s: Service): Networks.Network {
    s.network
  }

  /** `setNetwork`: switch network and rebuild the provider for its API URL. */
  function SetNetwork(s: Service, n: Networks.Network): (t: Service)
    ensures t.signer == s.signer && t.providerUrl == n.apiUrl
  {
    s.(network := n, providerUrl := n.apiUrl)
  }

  /** `getCurrentNetwork` returns what `setNetwork` last stored, and the
      provider follows it. */
  lemma SetThenGetNetwork(s: Service, n: Networks.Network)
    ensures GetCurrentNetwork(SetNetwork(s, n)) == n
    ensures SetNetwork(s, n).providerUrl == GetCurrentNetwork(SetNetwork(s, n)).apiUrl
  {
  }

  /** A new service is on the default network, testnet. */
  lemma NewServiceOnTestnet()
    ensures GetCurrentNetwork(New()).id == "testnet" && GetCurrentNetwork(New()).chainId == "T"
  {
  }

  /** Result of a call that may replace the signer. */
  datatype Step<T> = Step(service: Service, result: Result<T, ServiceError>)

  /** Derive the key from a phrase, install its signer, and return its address;
      a throw before the signer is installed leaves the service as it was. */
  function InstallFromPhrase(s: Service, phrase: string, crypto: Sdk.Crypto, error: ServiceError): (st: Step<string>)
    ensures st.result.Err? ==> st == Step(s, Err(error))
    ensures st.result.Ok? <==> crypto.mnemonicToKey(phrase).Ok?
    ensures st.result.Ok? ==>
      var key := crypto.mnemonicToKey(phrase).value;
      st.service == s.(signer := Some(key)) && st.result.value == crypto.addressOfKey(key)
  {
    match crypto.mnemonicToKey(phrase)
    case Err(_) => Step(s, Err(error))
    case Ok(key) => Step(s.(signer := Some(key)), Ok(crypto.addressOfKey(key)))
  }

  /** `createWallet`, with the 24-word phrase `generateMnemonic(256)` drew
      given as `generated`; returns the phrase and the address. */
  function CreateWallet(s: Service, generated: string, crypto: Sdk.Crypto): (st: Step<(string, string)>)
    ensures st.result.Err? ==> st == Step(s, Err(CreateFailed))
    ensures st.result.Ok? <==> crypto.mnemonicToKey(generated).Ok?
    ensures st.result.Ok? ==>
      var key := crypto.mnemonicToKey(generated).value;
      && st.result.value == (generated, crypto.addressOfKey(key))
      && st.service == s.(signer := Some(key))
  {
    var inner := InstallFromPhrase(s, generated, crypto, CreateFailed);
    match inner.result
    case Err(e) => Step(s, Err(e))
    case Ok(addr) => Step(inner.service, Ok((generated, addr)))
  }

  /** `importWallet`: a phrase the validator rejects fails without touching the
      signer. */
  function ImportWallet(s: Service, phrase: string, isValidPhrase: string -> bool, crypto: Sdk.Crypto): (st: Step<string>)
    ensures !isValidPhrase(phrase) ==> st == Step(s, Err(ImportFailed))
    ensures st.result.Err? ==> st == Step(s, Err(ImportFailed))
    ensures st.result.Ok? <==> isValidPhrase(phrase) && crypto.mnemonicToKey(phrase).Ok?
    ensures st.result.Ok? ==>
      var key := crypto.mnemonicToKey(phrase).value;
      && st.service == s.(signer := Some(key))
      && st.result.value == crypto.addressOfKey(key)
  {
    if !isValidPhrase(phrase) then Step(s, Err(ImportFailed))
    else InstallFromPhrase(s, phrase, crypto, ImportFailed)
  }

  /** Importing the phrase `createWallet` generated, once the validator accepts
      it, installs the same signer and returns the same address as creating
      did, and the two fail together. */
  lemma ImportCreatedPhrase(s: Service, generated: string, isValidPhrase: string -> bool, crypto: Sdk.Crypto)
    requires isValidPhrase(generated)
    ensures CreateWallet(s, generated, crypto).result.Ok? <==> ImportWallet(s, generated, isValidPhrase, crypto).result.Ok?
    ensures CreateWallet(s, generated, crypto).result.Ok? ==>
      && ImportWallet(s, generated, isValidPhrase, crypto).service == CreateWallet(s, generated, crypto).service
      && ImportWallet(s, generated, isValidPhrase, crypto).result.value == CreateWallet(s, generated, crypto).result.value.1
  {
  }

  /** `getBalance(address)`: the account's balance as decimal text. */
  function GetBalance(address: string, crypto: Sdk.Crypto, gateway: Sdk.Gateway): (r: Result<string, ServiceError>)
    ensures r.Err? ==> r == Err(BalanceFailed)
    ensures r.Ok? <==> crypto.isAddress(address) && gateway.getAccount(address).Ok?
    ensures r.Ok? ==> AllDigitsOf(r.value, 10) && DigitsValue(r.value, 10) == gateway.getAccount(address).value.balance
  {
    if !crypto.isAddress(address) then Err(BalanceFailed)
    else match gateway.getAccount(address)
      case Err(_) => Err(BalanceFailed)
      case Ok(account) =>
        DecimalRoundTrip(account.balance);
        Ok(NatToDecimal(account.balance))
  }

  const GasPrice: nat := 1000000000
  const GasLimit: nat := 50000
  const TxVersion: nat := 1

  /** The unsigned transaction `sendTransaction` builds. */
  function BuildTransaction(s: Service, nonce: nat, value: int, sender: string, receiver: string): (tx: Sdk.Transaction)
    ensures tx.nonce == nonce && tx.value == value && tx.sender == sender && tx.receiver == receiver
    ensures tx.gasPrice == Some(GasPrice) && tx.gasLimit == GasLimit && tx.version == TxVersion
    ensures tx.chainId == s.network.chainId
    ensures tx.data == [] && tx.signature == []
  {
    Sdk.Transaction(nonce, value, sender, receiver, Some(GasPrice), GasLimit, [], s.network.chainId, TxVersion, [])
  }

  /** Everything `sendTransaction` does before submitting: the signer check,
      the two address objects, the nonce query, `BigInt(amount)`, building
      and signing. */
  function PrepareSend(s: Service, from: string, to: string, amount: string, crypto: Sdk.Crypto, gateway: Sdk.Gateway)
    : (r: Result<Sdk.Transaction, ServiceError>)
    ensures r.Err? ==> r == Err(SendFailed)
    ensures s.signer.None? ==> r.Err?
    ensures r.Ok? <==>
      && s.signer.Some? && crypto.isAddress(from) && crypto.isAddress(to)
      && gateway.getAccount(from).Ok? && ParseBigInt(amount).Some?
    ensures r.Ok? ==>
      r.value == Sdk.SignWith(crypto, s.signer.value,
           BuildTransaction(s, gateway.getAccount(from).value.nonce, ParseBigInt(amount).value, from, to))
  {
    if s.signer.None? then Err(SendFailed)
    else if !crypto.isAddress(from) || !crypto.isAddress(to) then Err(SendFailed)
    else match gateway.getAccount(from)
      case Err(_) => Err(SendFailed)
      case Ok(account) =>
        match ParseBigInt(amount)
        case None => Err(SendFailed)
        case Some(value) =>
          Ok(Sdk.SignWith(crypto, s.signer.value, BuildTransaction(s, account.nonce, value, from, to)))
  }

  /** `sendTransaction(from, to, amount)`: the hash the provider returns for the
      prepared transaction; every failure is the same `SendFailed`. */
  function SendTransaction(s: Service, from: string, to: string, amount: string, crypto: Sdk.Crypto, gateway: Sdk.Gateway)
    : (r: Result<string, ServiceError>)
    ensures r.Err? ==> r == Err(SendFailed)
    ensures r.Ok? <==> PrepareSend(s, from, to, amount, crypto, gateway).Ok?
                       && gateway.sendTransaction(PrepareSend(s, from, to, amount, crypto, gateway).value).Ok?
    ensures r.Ok? ==> r.value == gateway.sendTransaction(PrepareSend(s, from, to, amount, crypto, gateway).value).value
  {
    match PrepareSend(s, from, to, amount, crypto, gateway)
    case Err(e) => Err(e)
    case Ok(tx) =>
      match gateway.sendTransaction(tx)
      case Err(_) => Err(SendFailed)
      case Ok(hash) => Ok(hash)
  }

  /** After `clearWallet`, sending fails whatever the network says. */
  lemma SendAfterClearFails(s: Service, from: string, to: string, amount: string, crypto: Sdk.Crypto, gateway: Sdk.Gateway)
    ensures SendTransaction(ClearWallet(s), from, to, amount, crypto, gateway) == Err(SendFailed)
  {
  }

  /** A transaction sent after `setNetwork(n)` carries `n`'s chain id. */
  lemma SentTransactionOnCurrentChain(s: Service, n: Networks.Network, from: string, to: string, amount: string,
                                       crypto: Sdk.Crypto, gateway: Sdk.Gateway)
    requires PrepareSend(SetNetwork(s, n), from, to, amount, crypto, gateway).Ok?
    ensures PrepareSend(SetNetwork(s, n), from, to, amount, crypto, gateway).value.chainId == n.chainId
    ensures PrepareSend(SetNetwork(s, n), from, to, amount, crypto, gateway).value.value == ParseBigInt(amount).value
  {
  }

  /** One entry of the list `getTransactions` returns. */
  datatype TxSummary = TxSummary(hash: string, value: string, sender: string, receiver: string, timestamp: int)

  /** `timestamp || Date.now()`: 0, NaN and a missing field are falsy. */
  function TimestampOr(t: Sdk.RawTimestamp, now: int): (ms: int)
    ensures t.Millis? && t.ms != 0 ==> ms == t.ms
    ensures !(t.Millis? && t.ms != 0) ==> ms == now
  {
    match t
    case Millis(ms) => if ms != 0 then ms else now
    case _ => now
  }

  /** Every entry has a `value` whose `toString()` does not throw. */
  predicate ValuesPresent(raw: seq<Sdk.RawTransaction>) {
    forall i :: 0 <= i < |raw| ==> raw[i].value.Some?
  }

  function Summarize(tx: Sdk.RawTransaction, now: int): TxSummary
    requires tx.value.Some?
  {
    TxSummary(tx.hash, tx.value.value, tx.sender, tx.receiver, TimestampOr(tx.timestamp, now))
  }

  /** `getTransactions(address)`. `Date.now()` is read afresh for each entry
      the `map` visits, so the clock is a function of the entry's position:
      `clock(i)` is the time read while mapping entry `i`. An entry without a
      `value` makes `toString()` throw, and the whole call fails. */
  function GetTransactions(address: string, clock: nat -> int, gateway: Sdk.Gateway)
    : (r: Result<seq<TxSummary>, ServiceError>)
    ensures r.Err? <==>
      || gateway.getTransaction(address).Err?
      || (gateway.getTransaction(address).value.Entries? && !ValuesPresent(gateway.getTransaction(address).value.entries))
    ensures r.Err? ==> r == Err(HistoryFailed)
    ensures gateway.getTransaction(address) == Ok(Sdk.NotAnArray) ==> r == Ok([])
    ensures r.Ok? && gateway.getTransaction(address).value.Entries? ==>
      var raw := gateway.getTransaction(address).value.entries;
      && |r.value| == |raw|
      && forall i :: 0 <= i < |raw| ==>
           && r.value[i].hash == raw[i].hash && Some(r.value[i].value) == raw[i].value
           && r.value[i].sender == raw[i].sender && r.value[i].receiver == raw[i].receiver
           && r.value[i].timestamp == TimestampOr(raw[i].timestamp, clock(i))
  {
    match gateway.getTransaction(address)
    case Err(_) => Err(HistoryFailed)
    case Ok(response) =>
      if response.NotAnArray? then Ok([])
      else
        var raw := response.entries;
        if !ValuesPresent(raw) then Err(HistoryFailed)
        else
          var summaries := seq(|raw|, i requires 0 <= i < |raw| => Summarize(raw[i], clock(i)));
          assert forall i :: 0 <= i < |raw| ==> summaries[i] == Summarize(raw[i], clock(i));
          Ok(summaries)
  }

  /** The list keeps the provider's transactions in order: entry `i` has the
      hash of the provider's entry `i`. */
  lemma TransactionsKeepHashes(address: string, clock: nat -> int, gateway: Sdk.Gateway)
    requires gateway.getTransaction(address).Ok? && gateway.getTransaction(address).value.Entries?
    requires ValuesPresent(gateway.getTransaction(address).value.entries)
    ensures var raw := gateway.getTransaction(address).value.entries;
      var r := GetTransactions(address, clock, gateway);
      r.Ok? && seq(|r.value|, i requires 0 <= i < |r.value| => r.value[i].hash) == seq(|raw|, i requires 0 <= i < |raw| => raw[i].hash)
  {
  }

  /** The clock is read only for entries whose timestamp is falsy: when every
      entry has a non-zero timestamp, the list does not depend on the clock. */
  lemma TransactionsIgnoreClock(address: string, clock1: nat -> int, clock2: nat -> int, gateway: Sdk.Gateway)
    requires gateway.getTransaction(address).Ok? && gateway.getTransaction(address).value.Entries?
    requires var raw := gateway.getTransaction(address).value.entries;
      forall i :: 0 <= i < |raw| ==> raw[i].timestamp.Millis? && raw[i].timestamp.ms != 0
    ensures GetTransactions(address, clock1, gateway) == GetTransactions(address, clock2, gateway)
  {
    var raw := gateway.getTransaction(address).value.entries;
    if ValuesPresent(raw) {
      var r1 := GetTransactions(address, clock1, gateway).value;
      var r2 := GetTransactions(address, clock2, gateway).value;
      forall i | 0 <= i < |r1|
        ensures r1[i] == r2[i]
      {
        assert r1[i].timestamp == r2[i].timestamp;
      }
      assert r1 == r2;
    }
  }
}
